=== FILE: README.md ===
# MicroFPGA host driver: register and channel layer

A Dafny model of the host-side layer of the MicroFPGA Java driver. The
driver talks to an FPGA board that exposes a file of integer registers.
It reaches those registers through typed channels:

- TTL outputs, PWM outputs and servo outputs;
- analog inputs, which are read-only;
- the three registers of each laser trigger: mode, pulse duration and 16-bit on/off sequence;
- the camera trigger's mode, start and timing registers.

The model covers:

- the channel rules: address = base of the kind + index, and a write is refused without touching the link when the channel is read-only or the value is out of range;
- the 16-bit sequence codec between strings and integers;
- the laser trigger modes;
- the laser parameter value object and its text form;
- the conversion of camera timings between milliseconds and register ticks;
- the device factory that hands out channel indices;
- the controller's handshake, channel allocation and guarded accessors.

The serial link is modelled as a register map plus a log of every connect,
disconnect and write call. Whether the device accepts each call is an input
(`Bus.refused`, a set of positions in the call log). "No transport call"
therefore means "the log is unchanged".

Files, one module each:

- `transport.dfy`: the link.
- `registers.dfy`: the register map constants.
- `signal.dfy`: channel kinds and ordered multi-register writes.
- `sequence_codec.dfy`, `laser_trigger_mode.dfy`, `laser_parameters.dfy`, `laser_trigger.dfy`: the laser trigger.
- `camera_parameters.dfy`, `camera_trigger.dfy`: the camera trigger.
- `device_factory.dfy`: the device factory.
- `controller.dfy`: the controller.
- `optional.dfy`, `sequences.dfy`: shared helpers.

Where the documentation and the code disagree, the model follows the code:

- The tests and `LaserParameters.getFormattedSequence` call the integer-to-string conversion `stringSequence`. The class defines it as `getSequence(int)`. The model names it `StringSequence` and gives it the behaviour the tests expect.
- The class comment of `CameraParameters` announces maxima of 1048.575 ms for pulse and exposure. The code clamps every field to 65535 ticks. The model uses 65535 everywhere.
- `CameraParametersTest` uses steps of 0.1 ms, and 0.01 ms for the delay. `CameraParameters` itself uses 1000 ticks per ms. The test values are therefore checked against the 10/100 ticks-per-ms profile of `CameraTrigger.Parameters`.

## Model

| member | source | states |
|---|---|---|
| `Transport.WriteRegister` | src/main/java/de/embl/rieslab/microfpga/devices/Signal.java:27 | A write is logged whatever its outcome. The outcome is the device's answer. An accepted write makes the register read the value. A refused one changes no register. No other register ever changes. |
| `Transport.OpenLink` | src/main/java/de/embl/rieslab/microfpga/MicroFPGAController.java:29 | Connecting appends exactly one call to the log. It succeeds iff the device accepts that call. Every register reads as before, and the device's future answers are unchanged. |
| `Transport.CloseLink` | src/main/java/de/embl/rieslab/microfpga/MicroFPGAController.java:85-87 | Disconnecting appends exactly one call to the log. It succeeds iff the device accepts that call. Every register reads as before, and the device's future answers are unchanged. |
| `Signal.SetState` | src/main/java/de/embl/rieslab/microfpga/devices/Signal.java:25-30 | A read-only channel or a value outside [0, max] gives false with the bus untouched. Otherwise exactly one write of the value to base + index is made, and its answer is returned. On success the channel reads back the value, and no other register changes. |
| `Signal.GetState` | src/main/java/de/embl/rieslab/microfpga/devices/Signal.java:32-34 | No contract of its own: the raw register at base + index, read without a range check and without a logged call. `Signal.GetAfterSet` gives its value after any write. |
| `Signal.GetAfterSet` | src/main/java/de/embl/rieslab/microfpga/devices/Signal.java:25-34 | After any `setState`, a channel reads the written value iff the write succeeded on its own register. Otherwise it reads what it read before. |
| `Signal.IsValueAllowed` | src/main/java/de/embl/rieslab/microfpga/devices/Signal.java:38-40 | An allowed value fits a 16-bit register, 0..65535, and an analog input allows none. |
| `Signal.ValueAllowedIsRange` | src/main/java/de/embl/rieslab/microfpga/devices/Signal.java:38-40 | A value is allowed iff 0 <= v <= max of the kind. This includes analog inputs, whose override and max of -1 agree. |
| `Signal.KindTable` | src/main/java/de/embl/rieslab/microfpga/devices/TTL.java:7-17 | TTL accepts exactly OFF = 0 and ON = 1, PWM exactly [0, 255], servo exactly [0, 65535]. Analog inputs accept nothing and are read-only; the others are writable. |
| `Signal.AnalogInputRejectsEveryWrite` | src/main/java/de/embl/rieslab/microfpga/devices/AnalogInput.java:7-19 | Every write to an analog input fails with no transport call. |
| `Signal.FailedWriteChangesNoReading` | src/main/java/de/embl/rieslab/microfpga/devices/Signal.java:25-34 | After a failed setState, every channel reads what it read before. |
| `Signal.AddressesDisjoint` | src/main/java/de/embl/rieslab/microfpga/devices/Signal.java:33 | Two channels of the board share a register only if they are the same channel. No channel sits on the version or identity register. |
| `Signal.WriteInOrder` | src/main/java/de/embl/rieslab/microfpga/devices/CameraTrigger.java:168-183 | Ordered writes stop at the first failure. Success means every command was accepted by its channel and exactly the writes of all commands were logged. The log only grows, by at most one call per command. |
| `Signal.StopsAtFirstFailure` | src/main/java/de/embl/rieslab/microfpga/devices/CameraTrigger.java:171-182 | When the k-th write fails after k successes, the result is that failure. Nothing after it is attempted. |
| `Signal.WriteInOrderFrame` | src/main/java/de/embl/rieslab/microfpga/devices/CameraTrigger.java:168-183 | A register that no command addresses is unchanged, whatever succeeds. |
| `Signal.WriteInOrderReadsBack` | src/main/java/de/embl/rieslab/microfpga/devices/CameraTrigger.java:168-183 | After fully accepted writes to distinct registers, every channel reads back its value. |
| `LaserTriggerMode.Value` | src/main/java/de/embl/rieslab/microfpga/devices/LaserTriggerMode.java:4-14 | Mode values lie in 0..4, and the value is 0 exactly for OFF. |
| `LaserTriggerMode.FromValue` | src/main/java/de/embl/rieslab/microfpga/devices/LaserTriggerMode.java:16-29 | 1..4 decode to the mode with that value. Every other integer decodes to OFF. |
| `LaserTriggerMode.FromValueOfValue` | src/main/java/de/embl/rieslab/microfpga/devices/LaserTriggerMode.java:4-29 | Decoding a mode's value gives the mode back. |
| `LaserTriggerMode.ValueOfFromValue` | src/main/java/de/embl/rieslab/microfpga/devices/LaserTriggerMode.java:16-29 | Encoding a decoded integer gives it back iff it is in 0..4. |
| `LaserTriggerMode.ValueInjective` | src/main/java/de/embl/rieslab/microfpga/devices/LaserTriggerMode.java:4 | Distinct modes have distinct values. |
| `SequenceCodec.IsBits` | src/main/java/de/embl/rieslab/microfpga/devices/LaserTrigger.java:147-154 | True iff every character is '0' or '1'. |
| `SequenceCodec.BitsValue` | src/main/java/de/embl/rieslab/microfpga/devices/LaserTrigger.java:127 | The base-2 value of a binary string is below 2^length. |
| `SequenceCodec.FormatSequence` | src/main/java/de/embl/rieslab/microfpga/devices/LaserTrigger.java:122-128 | -1 iff the string is not a 16-character binary string. Otherwise a value in [0, 65535]. |
| `SequenceCodec.StringSequence` | src/main/test/de/embl/rieslab/microfpga/devices/LaserTriggerTest.java:38-47 | "" iff the input is outside [0, 65535]. Otherwise a 16-character binary string. |
| `SequenceCodec.ValueOfBits` | src/main/java/de/embl/rieslab/microfpga/devices/LaserTrigger.java:127 | Reading back the w low bits of n gives n mod 2^w. |
| `SequenceCodec.BitsOfValue` | src/main/java/de/embl/rieslab/microfpga/devices/LaserTrigger.java:122-128 | Writing out the value of a binary string at its own width gives the string back. |
| `SequenceCodec.FormatOfString` | src/main/test/de/embl/rieslab/microfpga/devices/LaserTriggerTest.java:50-54 | formatSequence(stringSequence(i)) == i for every i in [0, 65535]. |
| `SequenceCodec.StringOfFormat` | src/main/java/de/embl/rieslab/microfpga/devices/LaserTrigger.java:122-145 | stringSequence(formatSequence(s)) == s for every valid sequence string. |
| `SequenceCodec.AlternatingSample` | src/main/test/de/embl/rieslab/microfpga/devices/LaserTriggerTest.java:44 | 43690 is written "1010101010101010". |
| `SequenceCodec.AlternatingRoundTrip` | src/main/test/de/embl/rieslab/microfpga/devices/LaserTriggerTest.java:31-44 | The test sample converts both ways. |
| `SequenceCodec.FailureVectors` | src/main/test/de/embl/rieslab/microfpga/devices/LaserTriggerTest.java:22-40 | The test's wrong lengths and non-binary string give -1. Its out-of-range values give "". |
| `SequenceCodec.StringSequenceByThreshold` | src/main/java/de/embl/rieslab/microfpga/devices/LaserTrigger.java:130-145 | The source's subtract-the-power-of-two loop, with the comparison the other way round, computes the intended conversion. |
| `SequenceCodec.InvertedLoop` | src/main/java/de/embl/rieslab/microfpga/devices/LaserTrigger.java:135-142 | The loop as written yields j+1 binary characters. |
| `SequenceCodec.StringSequenceAsWritten` | src/main/java/de/embl/rieslab/microfpga/devices/LaserTrigger.java:130-145 | As written, "" exactly outside [0, 65535]. |
| `SequenceCodec.NegativeGivesOnes` | src/main/java/de/embl/rieslab/microfpga/devices/LaserTrigger.java:135-142 | Once the running value is negative, the loop as written emits only '1'. |
| `SequenceCodec.LargeGivesZeros` | src/main/java/de/embl/rieslab/microfpga/devices/LaserTrigger.java:135-142 | While the running value is at least 2^j, the loop as written emits only '0'. |
| `SequenceCodec.AsWrittenRoundTripFails` | src/main/java/de/embl/rieslab/microfpga/devices/LaserTrigger.java:136 | As written, the output is sixteen '1's below 32768 and sixteen '0's from there on. It differs from the intended string, and the round trip fails for every value. |
| `LaserParameters.SetMode` | src/main/java/de/embl/rieslab/microfpga/devices/LaserParameters.java:25-27 | The mode is stored unconditionally. Nothing else changes. |
| `LaserParameters.SetDuration` | src/main/java/de/embl/rieslab/microfpga/devices/LaserParameters.java:29-32 | Only a duration in [0, 65535] is stored. Otherwise the value is unchanged. Other fields never change. |
| `LaserParameters.SetSequenceBits` | src/main/java/de/embl/rieslab/microfpga/devices/LaserParameters.java:34-38 | A valid sequence string is stored, and its string form is that string. An invalid one leaves the value unchanged. |
| `LaserParameters.SetSequence` | src/main/java/de/embl/rieslab/microfpga/devices/LaserParameters.java:40-43 | Only a sequence in [0, 65535] is stored. Otherwise the value is unchanged. |
| `LaserParameters.FromBits` | src/main/java/de/embl/rieslab/microfpga/devices/LaserParameters.java:13-17 | The string constructor is valid, has the given mode, and has the duration and sequence if acceptable, else 0. |
| `LaserParameters.FromInt` | src/main/java/de/embl/rieslab/microfpga/devices/LaserParameters.java:19-23 | The integer constructor, with the same guarantees. |
| `LaserParameters.SetValues` | src/main/java/de/embl/rieslab/microfpga/devices/LaserParameters.java:53-57 | The three guarded setters in turn. Validity is kept, and each field is taken when acceptable and kept otherwise. |
| `LaserParameters.SettersKeepValid` | src/main/java/de/embl/rieslab/microfpga/devices/LaserParameters.java:9-43 | Every setter keeps duration and sequence in [0, 65535]. |
| `LaserParameters.FormattedSequence` | src/main/java/de/embl/rieslab/microfpga/devices/LaserParameters.java:49 | For a valid value: a 16-character binary string whose parsed value is the stored sequence. |
| `LaserParameters.DecimalRoundTrip` | src/main/java/de/embl/rieslab/microfpga/devices/LaserParameters.java:62 | The decimal rendering of the duration reads back as the duration. |
| `LaserParameters.ParseToString` | src/main/java/de/embl/rieslab/microfpga/devices/LaserParameters.java:59-66 | The "[Mode: m, Duration: d us, Sequence: bits]" text of a valid value parses back to the value. |
| `LaserParameters.ToString` | src/main/java/de/embl/rieslab/microfpga/devices/LaserParameters.java:59-66 | No contract of its own: the mode name, the decimal duration and the 16-bit sequence in brackets. `LaserParameters.ParseToString` recovers valid parameters from it, and `LaserParameters.ToStringInjective` shows distinct valid parameters print differently. |
| `LaserParameters.ToStringInjective` | src/main/java/de/embl/rieslab/microfpga/devices/LaserParameters.java:59-66 | Distinct valid values have distinct texts. |
| `LaserTrigger.SetMode` | src/main/java/de/embl/rieslab/microfpga/devices/LaserTrigger.java:91-93 | Writes through the mode channel: values 0..4 only, at the trigger's index. It reads back on success. |
| `LaserTrigger.GetMode` | src/main/java/de/embl/rieslab/microfpga/devices/LaserTrigger.java:95-97 | No contract of its own: the raw mode register. `SetMode` reads it back on success, and `LaserTrigger.SettersKeepOtherRegisters` shows the other two setters leave it alone. |
| `LaserTrigger.SetDuration` | src/main/java/de/embl/rieslab/microfpga/devices/LaserTrigger.java:99-101 | Writes through the duration channel: values 0..65535 only. It reads back on success. |
| `LaserTrigger.GetDuration` | src/main/java/de/embl/rieslab/microfpga/devices/LaserTrigger.java:103-105 | No contract of its own: the raw duration register. `SetDuration` reads it back on success, and `LaserTrigger.SettersKeepOtherRegisters` shows the other two setters leave it alone. |
| `LaserTrigger.SetSequence` | src/main/java/de/embl/rieslab/microfpga/devices/LaserTrigger.java:107-109 | Writes through the sequence channel: values 0..65535 only. It reads back on success. |
| `LaserTrigger.GetSequence` | src/main/java/de/embl/rieslab/microfpga/devices/LaserTrigger.java:111-113 | No contract of its own: the raw sequence register. `SetSequence` reads it back on success, and `LaserTrigger.SettersKeepOtherRegisters` shows the other two setters leave it alone. |
| `LaserTrigger.SettersKeepOtherRegisters` | src/main/java/de/embl/rieslab/microfpga/devices/LaserTrigger.java:91-113 | Each of the three setters writes only its own register. Whether it succeeds or not, the module's other two readings are unchanged. |
| `LaserTrigger.SetTriggerMode` | src/main/java/de/embl/rieslab/microfpga/devices/LaserTrigger.java:181-183 | Writes the mode's value directly, with no range check, and decodes back to the mode on success. |
| `LaserTrigger.SetParameters` | src/main/java/de/embl/rieslab/microfpga/MicroFPGAController.java:158-163 | Writes mode, duration and sequence in that order, stopping at the first failure. Success implies valid parameters and exactly those three writes. |
| `LaserTrigger.ValidParametersAreWritten` | src/main/java/de/embl/rieslab/microfpga/MicroFPGAController.java:158-163 | Conversely, valid parameters on a device that accepts the three writes are written in full. |
| `LaserTrigger.GetParameters` | src/main/java/de/embl/rieslab/microfpga/MicroFPGAController.java:172-177 | Reads the three registers into a valid value. The mode is the decoded mode register. |
| `LaserTrigger.ParametersRoundTrip` | src/main/java/de/embl/rieslab/microfpga/MicroFPGAController.java:158-177 | Parameters set in full read back unchanged. |
| `LaserTrigger.OutOfRangeDurationWritesOnlyMode` | src/main/java/de/embl/rieslab/microfpga/MicroFPGAController.java:158-163 | An out-of-range duration fails after the mode write. The sequence is never written. |
| `LaserTrigger.RisingExample` | src/main/test/de/embl/rieslab/microfpga/examples/Example02_MultipleLasers.java:41-59 | RISING, 2000 us, "1010101010101010" set on a laser reads back as the same parameters. |
| `LaserTrigger.RisingExampleString` | src/main/java/de/embl/rieslab/microfpga/devices/LaserParameters.java:59-66 | The same parameters print as "[Mode: RISING, Duration: 2000 us, Sequence: 1010101010101010]". |
| `CameraParameters.TicksFromMs` | src/main/java/de/embl/rieslab/microfpga/devices/CameraParameters.java:38-46 | Ticks are in [0, max]. In range they are the nearest tick, half up. Below -1/2 tick the result is 0, and from max + 1/2 up it is max. |
| `CameraParameters.CastThenClampIsTicks` | src/main/java/de/embl/rieslab/microfpga/devices/CameraParameters.java:39-45 | Java's truncating, saturating (int) cast of ms*scale+0.5 followed by the clamp gives the same ticks as floor then clamp. |
| `CameraParameters.TicksRoundTrip` | src/main/java/de/embl/rieslab/microfpga/devices/CameraParameters.java:38-46 | A tick count in range survives ticks -> ms -> ticks. |
| `CameraParameters.AlignedMsRoundTrip` | src/main/test/de/embl/rieslab/microfpga/devices/CameraParametersTest.java:20-32 | A tick-aligned value in range survives ms -> ticks -> ms. |
| `CameraParameters.SnapsToNearestTick` | src/main/test/de/embl/rieslab/microfpga/devices/CameraParametersTest.java:34-44 | Any value in range comes back within half a tick of itself. |
| `CameraParameters.SetMs` | src/main/java/de/embl/rieslab/microfpga/devices/CameraParameters.java:38-66 | Setting one field stores its rounded, clamped ticks. The other three fields are unchanged, and the range invariant is kept. |
| `CameraParameters.GetMs` | src/main/java/de/embl/rieslab/microfpga/devices/CameraParameters.java:78-84 | A field's ticks in milliseconds. For an in-range tick, converting that value back to ticks gives the stored tick. |
| `CameraParameters.SetThenGetMs` | src/main/java/de/embl/rieslab/microfpga/devices/CameraParameters.java:78-84 | Setting a tick-aligned in-range value and reading it back gives the value. |
| `CameraParameters.FromMs` | src/main/java/de/embl/rieslab/microfpga/devices/CameraTrigger.java:43-48 | Intended: the millisecond constructor with every setter clamping, the delay included. Pulse, period, exposure and delay are each rounded and clamped, and the result is in range. |
| `CameraParameters.ParametersFromMs` | src/main/java/de/embl/rieslab/microfpga/devices/CameraParameters.java:24-29 | Intended: the CameraParameters constructor takes (pulse, delay, exposure, read-out). Each value is rounded and clamped into its own field, and the result is in range. |
| `CameraParameters.FromMsAsWritten` | src/main/java/de/embl/rieslab/microfpga/devices/CameraTrigger.java:43-48 | As written: pulse, period and exposure are rounded and clamped. The delay is only rounded and cast, because setDelayMs clamps the pulse instead. |
| `CameraParameters.ParametersFromMsAsWritten` | src/main/java/de/embl/rieslab/microfpga/devices/CameraParameters.java:24-29 | As written: (pulse, delay, exposure, read-out) go to their fields. The pulse, read-out and exposure are clamped ticks; the delay is the unclamped cast. |
| `CameraParameters.AsWrittenConstructorWindow` | src/main/java/de/embl/rieslab/microfpga/devices/CameraParameters.java:24-29 | The constructor as written gives in-range parameters iff -1 < delay*scale + 0.5 < max + 1. Exactly on those inputs it equals the intended constructor. |
| `CameraParameters.ParametersFromTicks` | src/main/java/de/embl/rieslab/microfpga/devices/CameraParameters.java:31-36 | The integer constructor stores the four tick values verbatim in their fields. |
| `CameraParameters.SetDelayMsAsWritten` | src/main/java/de/embl/rieslab/microfpga/devices/CameraParameters.java:68-76 | As written: the delay is the unclamped cast. Period and exposure are unchanged. The pulse is clamped to [0, exposure max] and kept when already there. |
| `CameraParameters.AsWrittenDelayEscapesRange` | src/main/java/de/embl/rieslab/microfpga/devices/CameraParameters.java:69-75 | As written, a 1000 ms delay stores 1,000,000 ticks and -1 ms stores -999, both out of range. The intended setter stores 65535 and 0. In the 100-ticks-per-ms revision, the constructor as written stores 100,000 ticks for a 1000 ms delay, where the intended one stores 65535. |
| `CameraParameters.TriggerTestValues` | src/main/test/de/embl/rieslab/microfpga/devices/CameraParametersTest.java:20-44 | The test values: aligned values give ticks 15/458/300/164 and read back exactly. Misaligned ones snap to 15/458/301/163. |
| `CameraTrigger.ModeValue` | src/main/java/de/embl/rieslab/microfpga/devices/CameraTrigger.java:10-22 | ACTIVE is 1 and PASSIVE is 0. |
| `CameraTrigger.SetTriggerMode` | src/main/java/de/embl/rieslab/microfpga/devices/CameraTrigger.java:196-203 | One direct write of the mode value to the mode register, which reads back on success. No other register changes. |
| `CameraTrigger.SetActiveTrigger` | src/main/java/de/embl/rieslab/microfpga/devices/CameraTrigger.java:152-154 | One write of 1 to the mode register. It succeeds iff the device accepts it, then reads back 1, and no other register changes. |
| `CameraTrigger.SetPassiveTrigger` | src/main/java/de/embl/rieslab/microfpga/devices/CameraTrigger.java:156-158 | One write of 0 to the mode register. It succeeds iff the device accepts it, then reads back 0, and no other register changes. |
| `CameraTrigger.Start` | src/main/java/de/embl/rieslab/microfpga/devices/CameraTrigger.java:217-219 | One write of 1 to the start register. It succeeds iff the device accepts it, then reads back 1, and no other register changes. |
| `CameraTrigger.Stop` | src/main/java/de/embl/rieslab/microfpga/devices/CameraTrigger.java:221-223 | One write of 0 to the start register. It succeeds iff the device accepts it, then reads back 0, and no other register changes. |
| `CameraTrigger.StartThenStop` | src/main/java/de/embl/rieslab/microfpga/devices/CameraTrigger.java:160-166 | Start then stop, with the stop accepted, leaves the start register at 0 after exactly those two writes, and every other register reads as before. |
| `CameraTrigger.SetParameters` | src/main/java/de/embl/rieslab/microfpga/devices/CameraTrigger.java:168-183 | Pulse, period, exposure, delay in that order, stopping at the first failure. Success implies all four are in [0, 65535] and exactly the four writes were made. |
| `CameraTrigger.InRangeParametersAreWritten` | src/main/java/de/embl/rieslab/microfpga/devices/CameraTrigger.java:231-305 | Conversely, in-range parameters on a device that accepts four calls are written in full. |
| `CameraTrigger.ParametersReadBack` | src/main/java/de/embl/rieslab/microfpga/devices/CameraTrigger.java:168-183 | After a full write, the four timing registers read back the parameters. |
| `CameraTrigger.OutOfRangeExposureStopsEarly` | src/main/java/de/embl/rieslab/microfpga/devices/CameraTrigger.java:177-178 | An out-of-range exposure fails after at most two writes, and the delay register is untouched. |
| `DeviceFactory.Get` | src/main/java/de/embl/rieslab/microfpga/devices/DeviceFactory.java:24-57 | A channel is granted iff some are left. Its index is the counter, which then grows by one. Otherwise nothing changes. Other counters never change. Counters stay within [0, capacity]. |
| `DeviceFactory.NumLeft` | src/main/java/de/embl/rieslab/microfpga/devices/DeviceFactory.java:66-84 | While the counters are in range, what is left of a family lies between 0 and its capacity. `DeviceFactory.Get` grants iff it is positive. |
| `DeviceFactory.GetTwiceDistinct` | src/main/java/de/embl/rieslab/microfpga/devices/DeviceFactory.java:26 | Two successive grants give consecutive, hence distinct, indices. |
| `DeviceFactory.AllocateCountsDown` | src/main/java/de/embl/rieslab/microfpga/devices/DeviceFactory.java:24-84 | After n requests of one family, n fewer are left, or none once the family runs out. |
| `DeviceFactory.AllocateAsWritten` | src/main/java/de/embl/rieslab/microfpga/MicroFPGAController.java:45-56 | As written, n requests yield a list of length n. Entry i is a channel iff counter + i < capacity, and then its index is counter + i; the rest are null. |
| `DeviceFactory.Allocate` | src/main/java/de/embl/rieslab/microfpga/MicroFPGAController.java:45-62 | Intended: only granted channels are kept, holding consecutive indices, min(n, left) of them. |
| `DeviceFactory.AllocateDropsNulls` | src/main/java/de/embl/rieslab/microfpga/MicroFPGAController.java:45-56 | The intended list is the as-written list with its nulls removed, and the factory ends the same. |
| `DeviceFactory.NoneStaysNone` | src/main/java/de/embl/rieslab/microfpga/devices/DeviceFactory.java:24-29 | An exhausted family stays unchanged under further requests. |
| `DeviceFactory.NullsPastCapacity` | src/main/java/de/embl/rieslab/microfpga/MicroFPGAController.java:45-47 | From a fresh factory, asking for more than the capacity gives a null at the capacity's position. The intended list stops at the capacity. |
| `DeviceFactory.RequestsKeepCameraCounter` | src/main/java/de/embl/rieslab/microfpga/devices/DeviceFactory.java:24-64 | For every factory and every series of requests (single channels, allocation loops, camera requests), the camera counter is unchanged. |
| `DeviceFactory.CameraNeverGranted` | src/main/java/de/embl/rieslab/microfpga/devices/DeviceFactory.java:13-64 | After any series of requests from a new factory, `getCameraTrigger` as written still grants nothing: the counter is 0 and the guard asks for a negative one. |
| `DeviceFactory.GetCameraTriggerAsWritten` | src/main/java/de/embl/rieslab/microfpga/devices/DeviceFactory.java:59-64 | As written, nothing is granted while the camera counter is non-negative. `DeviceFactory.CameraNeverGranted` shows that every factory reached from a new one has such a counter, so the trigger is never handed out. |
| `DeviceFactory.CameraGrantedOnce` | src/main/java/de/embl/rieslab/microfpga/devices/DeviceFactory.java:59-64 | Intended: a fresh camera counter grants the trigger once, never twice. |
| `DeviceFactory.GetCameraTrigger` | src/main/java/de/embl/rieslab/microfpga/devices/DeviceFactory.java:59-64 | Intended: the trigger is granted iff it was not handed out yet, and the grant is counted. A refused request changes nothing. `DeviceFactory.CameraGrantedOnce` shows a new factory grants it once, never twice. |
| `MicroFpgaController.Populate` | src/main/java/de/embl/rieslab/microfpga/MicroFPGAController.java:37-68 | Intended: allocation from a fresh factory in the order TTL, PWM, laser, servo, analog input. Each list holds 0, 1, 2, ... and min(requested, capacity) entries, with no nulls; negative counts count as 0. Analog inputs are allocated on Au and Au+ only. |
| `MicroFpgaController.Open` | src/main/java/de/embl/rieslab/microfpga/MicroFPGAController.java:23-83 | A refused connect fails with NoDevice after one call. A wrong version fails as WrongVersion; otherwise an unknown id fails as UnknownId. Both are reported after connect and disconnect calls. It opens iff connected with version 2 and id 49/79/80. Without the camera it writes PASSIVE to the mode register. |
| `MicroFpgaController.CuHasNoAnalogInputs` | src/main/java/de/embl/rieslab/microfpga/MicroFPGAController.java:58-62 | A Cu board gets no analog inputs, and every analog read returns -1. |
| `MicroFpgaController.SetTtlState` | src/main/java/de/embl/rieslab/microfpga/MicroFPGAController.java:109-114 | Outside the guard: false, no call. Inside: one write of ON for true or OFF for false, reading back the state on success. |
| `MicroFpgaController.GetTtlState` | src/main/java/de/embl/rieslab/microfpga/MicroFPGAController.java:116-121 | True iff the guard holds and the TTL register reads ON. |
| `MicroFpgaController.SetPwmState` | src/main/java/de/embl/rieslab/microfpga/MicroFPGAController.java:123-128 | Guarded PWM write: [0, 255] only. It reads back on success. |
| `MicroFpgaController.GetPwmState` | src/main/java/de/embl/rieslab/microfpga/MicroFPGAController.java:130-135 | The raw PWM register, or -1 outside the guard. |
| `MicroFpgaController.SetServoState` | src/main/java/de/embl/rieslab/microfpga/MicroFPGAController.java:137-142 | Guarded servo write: [0, 65535] only. It reads back on success. |
| `MicroFpgaController.GetServoState` | src/main/java/de/embl/rieslab/microfpga/MicroFPGAController.java:144-149 | The raw servo register, or -1. |
| `MicroFpgaController.GetAnalogInputState` | src/main/java/de/embl/rieslab/microfpga/MicroFPGAController.java:151-156 | The raw analog register, or -1. |
| `MicroFpgaController.SetLaserModeState` | src/main/java/de/embl/rieslab/microfpga/MicroFPGAController.java:179-184 | Guarded mode write: 0..4 only. It reads back on success. |
| `MicroFpgaController.GetLaserModeState` | src/main/java/de/embl/rieslab/microfpga/MicroFPGAController.java:186-191 | The raw mode register, or -1. |
| `MicroFpgaController.SetLaserDurationState` | src/main/java/de/embl/rieslab/microfpga/MicroFPGAController.java:193-198 | Guarded duration write: [0, 65535] only. It reads back on success. |
| `MicroFpgaController.GetLaserDurationState` | src/main/java/de/embl/rieslab/microfpga/MicroFPGAController.java:200-205 | The raw duration register, or -1. |
| `MicroFpgaController.SetLaserSequenceState` | src/main/java/de/embl/rieslab/microfpga/MicroFPGAController.java:207-212 | Guarded sequence write: [0, 65535] only. It reads back on success. |
| `MicroFpgaController.GetLaserSequenceState` | src/main/java/de/embl/rieslab/microfpga/MicroFPGAController.java:214-219 | The raw sequence register, or -1. |
| `MicroFpgaController.SetLaserParametersAsWritten` | src/main/java/de/embl/rieslab/microfpga/MicroFPGAController.java:158-163 | As written: always false. The writes happen only inside the guard. |
| `MicroFpgaController.SetLaserParameters` | src/main/java/de/embl/rieslab/microfpga/MicroFPGAController.java:158-163 | Intended: false with no call outside the guard. Success means the parameters were valid and read back. The writes are the same as the as-written method's. |
| `MicroFpgaController.LaserParametersSuccessReportedAsFailure` | src/main/java/de/embl/rieslab/microfpga/MicroFPGAController.java:158-163 | When every write succeeds, the as-written method still reports false, though the parameters read back. The intended one reports true. |
| `MicroFpgaController.GetLaserParameters` | src/main/java/de/embl/rieslab/microfpga/MicroFPGAController.java:172-177 | A valid value iff the guard holds, else null. |
| `MicroFpgaController.GetLaserParametersPretty` | src/main/java/de/embl/rieslab/microfpga/MicroFPGAController.java:165-170 | Outside the guard, the fixed message. Inside, a text that parses back to the laser's parameters. |
| `MicroFpgaController.SetActiveTrigger` | src/main/java/de/embl/rieslab/microfpga/MicroFPGAController.java:221-224 | Without a connection and a camera trigger: false, no call. Otherwise writes 1 to the mode register. No other register changes. |
| `MicroFpgaController.SetPassiveTrigger` | src/main/java/de/embl/rieslab/microfpga/MicroFPGAController.java:226-229 | Likewise, writing 0 to the mode register. No other register changes. |
| `MicroFpgaController.StartCamera` | src/main/java/de/embl/rieslab/microfpga/MicroFPGAController.java:231-234 | Likewise, writing 1 to the start register. No other register changes. |
| `MicroFpgaController.StopCamera` | src/main/java/de/embl/rieslab/microfpga/MicroFPGAController.java:236-239 | Likewise, writing 0 to the start register. No other register changes. |
| `MicroFpgaController.SetCameraTriggerParameters` | src/main/java/de/embl/rieslab/microfpga/MicroFPGAController.java:241-244 | Without a connection and a camera trigger: false, no call. Otherwise it is the trigger's `setParameters` on a parameter set already in register ticks, with the second field written to the period register (see Left out). In-range ticks on a device accepting four calls succeed. Success implies in-range ticks and exactly the four writes, and then all four timing registers read back their ticks. |
| `MicroFpgaController.CameraParametersMessage` | src/main/java/de/embl/rieslab/microfpga/MicroFPGAController.java:250-255 | "Not connected." iff disconnected. "Camera not instantiated." iff connected without a trigger. Otherwise the text comes from the trigger. |
| `MicroFpgaController.GetId` | src/main/java/de/embl/rieslab/microfpga/MicroFPGAController.java:257-270 | "Not connected" iff disconnected. When connected: "Au", "Cu" and "Au+" exactly for ids 79, 49 and 80, and "Unknown device" exactly for any other id. |
| `MicroFpgaController.OpenedBoardIsNamed` | src/main/java/de/embl/rieslab/microfpga/MicroFPGAController.java:23-37 | A board answering version 2 and a known identity is opened, and the controller then reports "Au", "Cu" or "Au+" exactly for identity 79, 49 or 80, never "Unknown device". |
| `MicroFpgaController.IdNamesDistinct` | src/main/java/de/embl/rieslab/microfpga/MicroFPGAController.java:257-270 | Connected boards of known identities get the same name iff they have the same identity. |
| `MicroFpgaController.Close` | src/main/java/de/embl/rieslab/microfpga/MicroFPGAController.java:85-87 | Connected afterwards iff the transport refused to disconnect. One call is logged. The registers and the device's future answers are unchanged, and so is the rest of the controller. |
| `MicroFpgaController.DisconnectedGivesSentinels` | src/main/java/de/embl/rieslab/microfpga/MicroFPGAController.java:109-270 | After an accepted disconnect, every accessor returns its sentinel (false, -1, null or the fixed message) with no transport call. |
| `MicroFpgaController.OpenedChannelsOnBoard` | src/main/java/de/embl/rieslab/microfpga/MicroFPGAController.java:45-62 | Under the intended allocation, every channel an opened controller holds exists on the board. |
| `MicroFpgaController.TtlWritesIndependent` | src/main/java/de/embl/rieslab/microfpga/MicroFPGAController.java:109-114 | Writing one TTL never changes what another TTL reads. |

## Left out

- The serial transport (`RegisterInterface`) is not part of this model. It is replaced by the register map and call log of `Transport`, and the device's answers are an input.
- Register addresses, channel capacities, `CURRENT_VERSION` and the board ids are not defined in the modelled files.
  - Version 2 and ids 49, 79 and 80 come from the constructor's error messages.
  - The addresses are a chosen non-overlapping layout (`Registers`), as are the capacities (8 lasers, 4 TTL, 7 servos, 5 PWM, 8 analog inputs).
  - The camera delay register, `ADDR_LASER_DELAY` in the source, is `CameraDelayAddr` here.
- The example programs: console demonstrations with sleeps and printing.
- IEEE-754 doubles are not modelled. Milliseconds are exact reals, and `(int)` is modelled as truncation with saturation.
- Text output of doubles is not modelled: `CameraParameters.toString` and the millisecond maps `getParametersMs` / `getValuesMs`. The integer maps `getParameters` / `getIntValues` are the fields of `Timing`.
- `LaserTrigger.Parameters` refers to fields and methods that do not exist and cannot compile. It is not modelled.
- The process-wide singleton of `CameraTrigger.getInstance`: the controller owns the one trigger.
- `LaserTrigger.setParameters`, `getParameters` and `getParametersPretty` are called by the controller but not defined in the modelled files.
  - `LaserTrigger.SetParameters` is modelled on the controller's call at MicroFPGAController.java:158-163 and on `CameraTrigger.setParameters` (CameraTrigger.java:168-183): write mode, duration and sequence through their channels in that order, stopping at the first failed write.
  - `LaserTrigger.GetParameters` is modelled on the call at MicroFPGAController.java:172-177: read the three registers back into a `LaserParameters` through its guarded setters (LaserParameters.java:19-43).
  - The pretty form is taken to be `LaserParameters.toString` of the parameters read back.
- `CameraTrigger.getParameters` and `getParametersPretty` are called but not defined. `getCameraTriggerParameters` and the trigger's own text are therefore not modelled; `CameraParametersMessage` covers the fixed messages only.
- `CameraTrigger.Readout`, named by `setReadoutMs`, does not exist. Its maximum is taken as 65535 like the others.
- Signal constructors: the laser channels call a `super(id, Direction.OUTPUT, regint)` constructor that does not exist. They are modelled as writable channels.
- `id` and `readOnly` are fields of the immutable `Channel` datatype, so they cannot change after construction.
- The constructor's exception messages are not modelled; the `Refusal` value carries the version or id they print.
- `getNumber*` and `isConnected` are the lengths of the channel lists and the `connected` field.
- `MicroFpgaController.SetCameraTriggerParameters`: the source passes its `CameraParameters` argument to `CameraTrigger.setParameters`, which takes a `CameraTrigger.Parameters` (MicroFPGAController.java:241-244, CameraTrigger.java:168). That call does not type-check. The two classes also differ: `CameraParameters` counts 1000 ticks per ms and keys its second field "Read-out", while `setParameters` looks up "Period". The model takes the parameter set already in register ticks (`Timing`). Its second field goes to the period register, so a read-out time given through `CameraParameters.ParametersFromMs` lands there. No conversion between the two classes is modelled.
- `MicroFpgaController.Populate`: models the intended allocation, not the loops at MicroFPGAController.java:45-62 as written. As written, each list has the requested length, with nulls past the capacity; `DeviceFactory.AllocateAsWritten` and `DeviceFactory.NullsPastCapacity` state that behaviour.
- `MicroFpgaController.OpenedChannelsOnBoard`: holds for the intended allocation only. As written, a list can hold null entries, which are no channel at all.
- `CameraParameters.FromMs`: uses the intended delay setter. The source constructor (CameraTrigger.java:43-48) calls `setDelayMs` as written. That constructor is `CameraParameters.FromMsAsWritten`, and `CameraParameters.AsWrittenConstructorWindow` states where the two agree.
- `CameraParameters.ParametersFromMs`: likewise for CameraParameters.java:24-29; the constructor as written is `CameraParameters.ParametersFromMsAsWritten`.
- `MicroFpgaController.Open` uses the intended factory behaviour, without nulls and with the camera trigger granted.
  - The as-written consequences are stated in `DeviceFactory` instead: null entries and a trigger that is never granted.
  - Because of the latter, the constructor as written dereferences null when the camera is not wanted (MicroFPGAController.java:67), and owns no trigger when it is.

## Findings

| source | as written | input that shows it | evidently intended | confidence | as-written member | corrected member |
|---|---|---|---|---|---|---|
| src/main/java/de/embl/rieslab/microfpga/devices/LaserTrigger.java:135-142 | the loop appends "1" when value < 2^j and subtracts 2^j | i = 43690 gives "0000000000000000"; any i < 32768 gives sixteen '1's | append "1" and subtract when value >= 2^j (MSB-first binary, as the tests expect) | high, not executed | `SequenceCodec.AsWrittenRoundTripFails` | `SequenceCodec.StringSequenceByThreshold` |
| src/main/java/de/embl/rieslab/microfpga/devices/CameraParameters.java:68-76 | setDelayMs, and so both millisecond constructors, store the delay unclamped and clamp the pulse against the exposure maximum | delay 1000 ms stores 1,000,000 ticks; -1 ms stores -999 | clamp the delay to [0, 65535] | high, not executed | `CameraParameters.AsWrittenDelayEscapesRange` | `CameraParameters.SetMs` |
| src/main/java/de/embl/rieslab/microfpga/devices/DeviceFactory.java:59-64 | the trigger is returned only when counterCamera_ < 0, and the counter is 0 and never changes | after any series of requests from a new factory, getCameraTrigger() returns null | hand the trigger out once, then count it | high, not executed | `DeviceFactory.CameraNeverGranted` | `DeviceFactory.CameraGrantedOnce` |
| src/main/java/de/embl/rieslab/microfpga/MicroFPGAController.java:158-163 | setLaserParameters ignores the result of the writes and returns false | connected, channel 0, every write accepted: false | return the outcome of the writes | high, not executed | `MicroFpgaController.LaserParametersSuccessReportedAsFailure` | `MicroFpgaController.SetLaserParameters` |
| src/main/java/de/embl/rieslab/microfpga/MicroFPGAController.java:45-56 | each loop appends the factory's result, null included | 5 TTLs requested with capacity 4: getNumberTTLs() is 5 and channel 4 is null | keep only granted channels | medium, not executed | `DeviceFactory.NullsPastCapacity` | `DeviceFactory.AllocateDropsNulls` |

=== FILE: camera_parameters.dfy ===
/**
  The camera trigger's timing parameters: pulse, period (or read-out time),
  exposure and delay. They are stored as integer register ticks and set and
  read in milliseconds through a fixed number of ticks per millisecond.

  Two revisions of this conversion exist side by side: CameraParameters
  (1000 ticks per ms on every field, the second field being the read-out
  time) and CameraTrigger.Parameters (10 ticks per ms, 100 for the delay,
  the second field being the period). Both are one model here, with the
  scale and the maximum of each field given by a profile.

  Milliseconds are exact reals: the rounding of IEEE doubles is not modelled.
 */
module CameraParameters {

  /** Ticks per millisecond and largest tick count of one field. */
  datatype Field = Field(scale: nat, max: nat)

  /** The four fields, in the order the setters and the register writes visit them. */
  datatype Slot = PulseSlot | IntervalSlot | ExposureSlot | DelaySlot

  datatype Profile = Profile(pulse: Field, interval: Field, exposure: Field, delay: Field)

  /** Tick counts of the four fields; `interval` is the period or the read-out time. */
  datatype Timing = Timing(pulse: int, interval: int, exposure: int, delay: int)

  /** CameraParameters: 1000 ticks per ms; maxima are the register maxima (65535). */
  const ParametersProfile: Profile :=
    Profile(Field(1000, 65535), Field(1000, 65535), Field(1000, 65535), Field(1000, 65535))

  /** CameraTrigger.Parameters: 10 ticks per ms, 100 for the delay; maxima 65535. */
  const TriggerProfile: Profile :=
    Profile(Field(10, 65535), Field(10, 65535), Field(10, 65535), Field(100, 65535))

  function FieldOf(pr: Profile, s: Slot): Field
  {
    match s
    case PulseSlot => pr.pulse
    case IntervalSlot => pr.interval
    case ExposureSlot => pr.exposure
    case DelaySlot => pr.delay
  }

  predicate ProfileOk(pr: Profile)
  {
    pr.pulse.scale > 0 && pr.interval.scale > 0 && pr.exposure.scale > 0 && pr.delay.scale > 0
  }

  function Get(t: Timing, s: Slot): int
  {
    match s
    case PulseSlot => t.pulse
    case IntervalSlot => t.interval
    case ExposureSlot => t.exposure
    case DelaySlot => t.delay
  }

  function With(t: Timing, s: Slot, v: int): (r: Timing)
    ensures Get(r, s) == v
    ensures forall o: Slot :: o != s ==> Get(r, o) == Get(t, o)
  {
    match s
    case PulseSlot => t.(pulse := v)
    case IntervalSlot => t.(interval := v)
    case ExposureSlot => t.(exposure := v)
    case DelaySlot => t.(delay := v)
  }

  /** Every field lies within [0, its maximum]. */
  predicate InRange(t: Timing, pr: Profile)
  {
    forall s: Slot :: 0 <= Get(t, s) <= FieldOf(pr, s).max
  }

  const IntMax: int := 0x7fff_ffff
  const IntMin: int := -0x8000_0000

  /** Java's `(int)` of a double: truncation toward zero, saturating at the int range. */
  function JavaIntCast(y: real): int
  {
    if y >= IntMax as real then IntMax
    else if y <= IntMin as real then IntMin
    else if y >= 0.0 then y.Floor
    else -((-y).Floor)
  }

  function Clamp(v: int, lo: int, hi: int): (r: int)
    requires lo <= hi
    ensures lo <= r <= hi
    ensures lo <= v <= hi ==> r == v
  {
    if v > hi then hi else if v < lo then lo else v
  }

  /**
    Milliseconds to ticks: round `ms * scale` half up to the nearest tick,
    then clamp to [0, max].
   */
  function TicksFromMs(ms: real, f: Field): (r: int)
    ensures 0 <= r <= f.max
    ensures -0.5 <= ms * f.scale as real < f.max as real + 0.5 ==>
              r as real - 0.5 <= ms * f.scale as real < r as real + 0.5
    ensures ms * f.scale as real < -0.5 ==> r == 0
    ensures ms * f.scale as real >= f.max as real + 0.5 ==> r == f.max
  {
    Clamp((ms * f.scale as real + 0.5).Floor, 0, f.max)
  }

  /** Ticks to milliseconds, the getters' `ticks / scale`. */
  function MsFromTicks(t: int, f: Field): real
    requires f.scale > 0
  {
    t as real / f.scale as real
  }

  /** The source's `(int)(ms*scale+0.5)` followed by its clamp gives the same ticks as the model. */
  lemma CastThenClampIsTicks(ms: real, f: Field)
    requires f.max <= IntMax
    ensures Clamp(JavaIntCast(ms * f.scale as real + 0.5), 0, f.max) == TicksFromMs(ms, f)
  {
  }

  /** A tick count survives the trip to milliseconds and back. */
  lemma TicksRoundTrip(k: int, f: Field)
    requires f.scale > 0 && 0 <= k <= f.max
    ensures TicksFromMs(MsFromTicks(k, f), f) == k
  {
    assert MsFromTicks(k, f) * f.scale as real == k as real;
  }

  /** A tick-aligned value in range survives the trip to ticks and back. */
  lemma AlignedMsRoundTrip(ms: real, k: int, f: Field)
    requires f.scale > 0 && 0 <= k <= f.max && ms * f.scale as real == k as real
    ensures MsFromTicks(TicksFromMs(ms, f), f) == ms
  {
    assert TicksFromMs(ms, f) == k;
    assert ms == k as real / f.scale as real;
  }

  /** Any value in range snaps to the nearest tick, ties going up: within half a tick of the input. */
  lemma SnapsToNearestTick(ms: real, f: Field)
    requires f.scale > 0 && 0.0 <= ms * f.scale as real < f.max as real + 0.5
    ensures var back := MsFromTicks(TicksFromMs(ms, f), f);
            back - 0.5 / f.scale as real <= ms < back + 0.5 / f.scale as real
  {
    var s := f.scale as real;
    var r := TicksFromMs(ms, f) as real;
    assert r - 0.5 <= ms * s < r + 0.5;
    assert (r - 0.5) / s <= ms < (r + 0.5) / s;
  }

  /** Setting one field in milliseconds: only that field changes, and it is rounded and clamped. */
  function SetMs(t: Timing, pr: Profile, s: Slot, ms: real): (r: Timing)
    ensures Get(r, s) == TicksFromMs(ms, FieldOf(pr, s))
    ensures forall o: Slot :: o != s ==> Get(r, o) == Get(t, o)
    ensures InRange(t, pr) ==> InRange(r, pr)
  {
    With(t, s, TicksFromMs(ms, FieldOf(pr, s)))
  }

  /** The getters: one field in milliseconds. */
  function GetMs(t: Timing, pr: Profile, s: Slot): (r: real)
    requires ProfileOk(pr)
    ensures 0 <= Get(t, s) <= FieldOf(pr, s).max ==> TicksFromMs(r, FieldOf(pr, s)) == Get(t, s)
  {
    if 0 <= Get(t, s) <= FieldOf(pr, s).max then
      TicksRoundTrip(Get(t, s), FieldOf(pr, s));
      MsFromTicks(Get(t, s), FieldOf(pr, s))
    else
      MsFromTicks(Get(t, s), FieldOf(pr, s))
  }

  /** Setting a field then reading it back returns the input when it is tick-aligned and in range. */
  lemma SetThenGetMs(t: Timing, pr: Profile, s: Slot, k: int)
    requires ProfileOk(pr) && 0 <= k <= FieldOf(pr, s).max
    ensures GetMs(SetMs(t, pr, s, MsFromTicks(k, FieldOf(pr, s))), pr, s) == MsFromTicks(k, FieldOf(pr, s))
  {
    TicksRoundTrip(k, FieldOf(pr, s));
  }

  /**
    The millisecond constructors: pulse, then period or read-out, then
    exposure, then delay. (CameraParameters takes its arguments in the
    order pulse, delay, exposure, read-out; see `ParametersFromMs`.)
   */
  function FromMs(pr: Profile, pulse: real, interval: real, exposure: real, delay: real): (r: Timing)
    requires ProfileOk(pr)
    ensures InRange(r, pr)
    ensures r.pulse == TicksFromMs(pulse, pr.pulse) && r.interval == TicksFromMs(interval, pr.interval)
    ensures r.exposure == TicksFromMs(exposure, pr.exposure) && r.delay == TicksFromMs(delay, pr.delay)
  {
    var t0 := Timing(0, 0, 0, 0);
    assert InRange(t0, pr);
    SetMs(SetMs(SetMs(SetMs(t0, pr, PulseSlot, pulse), pr, IntervalSlot, interval),
                pr, ExposureSlot, exposure), pr, DelaySlot, delay)
  }

  /** CameraParameters(double pulse, double delay, double exposure, double readout). */
  function ParametersFromMs(pulse: real, delay: real, exposure: real, readout: real): (r: Timing)
    ensures InRange(r, ParametersProfile)
    ensures r.pulse == TicksFromMs(pulse, ParametersProfile.pulse)
    ensures r.interval == TicksFromMs(readout, ParametersProfile.interval)
    ensures r.exposure == TicksFromMs(exposure, ParametersProfile.exposure)
    ensures r.delay == TicksFromMs(delay, ParametersProfile.delay)
  {
    FromMs(ParametersProfile, pulse, readout, exposure, delay)
  }

  /** CameraParameters(int pulse, int delay, int exposure, int readout): the ticks verbatim. */
  function ParametersFromTicks(pulse: int, delay: int, exposure: int, readout: int): (r: Timing)
    ensures Get(r, PulseSlot) == pulse && Get(r, DelaySlot) == delay
    ensures Get(r, ExposureSlot) == exposure && Get(r, IntervalSlot) == readout
  {
    Timing(pulse, readout, exposure, delay)
  }

  /**
    `setDelayMs` as written: the rounded delay is stored without a clamp,
    and the clamp that follows is applied to the pulse, against the
    exposure maximum.
   */
  function SetDelayMsAsWritten(t: Timing, pr: Profile, ms: real): (r: Timing)
    ensures r.interval == t.interval && r.exposure == t.exposure
    ensures r.delay == JavaIntCast(ms * pr.delay.scale as real + 0.5)
    ensures 0 <= r.pulse <= pr.exposure.max
    ensures 0 <= t.pulse <= pr.exposure.max ==> r.pulse == t.pulse
  {
    var pulse := if t.pulse > pr.exposure.max then pr.exposure.max else if t.pulse < 0 then 0 else t.pulse;
    t.(delay := JavaIntCast(ms * pr.delay.scale as real + 0.5), pulse := pulse)
  }

  /**
    The millisecond constructors as written: pulse, period or read-out and
    exposure go through their clamping setters, the delay through
    `setDelayMs` as written.
   */
  function FromMsAsWritten(pr: Profile, pulse: real, interval: real, exposure: real, delay: real): (r: Timing)
    requires ProfileOk(pr)
    ensures pr.pulse.max <= pr.exposure.max ==> r.pulse == TicksFromMs(pulse, pr.pulse)
    ensures r.interval == TicksFromMs(interval, pr.interval) && r.exposure == TicksFromMs(exposure, pr.exposure)
    ensures r.delay == JavaIntCast(delay * pr.delay.scale as real + 0.5)
  {
    var t0 := Timing(0, 0, 0, 0);
    assert InRange(t0, pr);
    SetDelayMsAsWritten(SetMs(SetMs(SetMs(t0, pr, PulseSlot, pulse), pr, IntervalSlot, interval),
                              pr, ExposureSlot, exposure), pr, delay)
  }

  /** CameraParameters(double pulse, double delay, double exposure, double readout), as written. */
  function ParametersFromMsAsWritten(pulse: real, delay: real, exposure: real, readout: real): (r: Timing)
    ensures r.pulse == TicksFromMs(pulse, ParametersProfile.pulse)
    ensures r.interval == TicksFromMs(readout, ParametersProfile.interval)
    ensures r.exposure == TicksFromMs(exposure, ParametersProfile.exposure)
    ensures r.delay == JavaIntCast(delay * ParametersProfile.delay.scale as real + 0.5)
  {
    FromMsAsWritten(ParametersProfile, pulse, readout, exposure, delay)
  }

  /**
    Java's cast of a rounded value lands in [0, max] exactly when the value
    lies strictly between -1 and max + 1, and there it equals floor then clamp.
   */
  lemma CastWindow(y: real, max: nat)
    requires max < IntMax
    ensures (-1.0 < y < max as real + 1.0) <==> 0 <= JavaIntCast(y) <= max
    ensures -1.0 < y < max as real + 1.0 ==> JavaIntCast(y) == Clamp(y.Floor, 0, max)
  {
    if y >= max as real + 1.0 {
      assert JavaIntCast(y) >= max + 1;
    } else if y <= -1.0 {
      assert JavaIntCast(y) <= -1;
    }
  }

  /** The constructor as written differs from the intended one in the delay alone. */
  lemma AsWrittenDiffersInDelayOnly(pr: Profile, pulse: real, interval: real, exposure: real, delay: real)
    requires ProfileOk(pr) && pr.pulse.max <= pr.exposure.max
    ensures FromMsAsWritten(pr, pulse, interval, exposure, delay)
            == FromMs(pr, pulse, interval, exposure, delay).(delay := JavaIntCast(delay * pr.delay.scale as real + 0.5))
  {
  }

  /**
    Replacing an in-range delay of `ms` milliseconds by the cast of the
    same rounded value keeps the parameters in range exactly when the cast
    lands in [0, max], and there changes nothing.
   */
  lemma CastDelayWindow(c: Timing, pr: Profile, ms: real)
    requires InRange(c, pr) && pr.delay.max < IntMax && c.delay == TicksFromMs(ms, pr.delay)
    ensures var y := ms * pr.delay.scale as real + 0.5;
            (-1.0 < y < pr.delay.max as real + 1.0) <==> InRange(c.(delay := JavaIntCast(y)), pr)
    ensures var y := ms * pr.delay.scale as real + 0.5;
            (-1.0 < y < pr.delay.max as real + 1.0) <==> c.(delay := JavaIntCast(y)) == c
  {
    var y := ms * pr.delay.scale as real + 0.5;
    assert c.delay == Clamp(y.Floor, 0, pr.delay.max);
    CastWindow(y, pr.delay.max);
    var w := c.(delay := JavaIntCast(y));
    assert InRange(w, pr) <==> 0 <= Get(w, DelaySlot) <= FieldOf(pr, DelaySlot).max by {
      assert forall s: Slot :: s != DelaySlot ==> Get(w, s) == Get(c, s);
    }
  }

  /**
    The constructor as written keeps its parameters in range exactly when
    the rounded delay, truncated toward zero, lands in [0, max]; on those
    inputs it agrees with the intended constructor, and on no other.
   */
  lemma AsWrittenConstructorWindow(pr: Profile, pulse: real, interval: real, exposure: real, delay: real)
    requires ProfileOk(pr) && pr.pulse.max <= pr.exposure.max && pr.delay.max < IntMax
    ensures var y := delay * pr.delay.scale as real + 0.5;
            (-1.0 < y < pr.delay.max as real + 1.0) <==> InRange(FromMsAsWritten(pr, pulse, interval, exposure, delay), pr)
    ensures var y := delay * pr.delay.scale as real + 0.5;
            (-1.0 < y < pr.delay.max as real + 1.0) <==>
              FromMsAsWritten(pr, pulse, interval, exposure, delay) == FromMs(pr, pulse, interval, exposure, delay)
  {
    AsWrittenDiffersInDelayOnly(pr, pulse, interval, exposure, delay);
    CastDelayWindow(FromMs(pr, pulse, interval, exposure, delay), pr, delay);
  }

  /**
    As written, a delay of one second in the CameraParameters revision is
    stored as 1,000,000 ticks, past the register's 65535, and a negative
    delay is stored negative; the corrected setter clamps both.
   */
  lemma AsWrittenDelayEscapesRange()
    ensures SetDelayMsAsWritten(Timing(0, 0, 0, 0), ParametersProfile, 1000.0).delay == 1000000
    ensures !InRange(SetDelayMsAsWritten(Timing(0, 0, 0, 0), ParametersProfile, 1000.0), ParametersProfile)
    ensures SetDelayMsAsWritten(Timing(0, 0, 0, 0), ParametersProfile, -1.0).delay == -999
    ensures SetMs(Timing(0, 0, 0, 0), ParametersProfile, DelaySlot, 1000.0).delay == 65535
    ensures SetMs(Timing(0, 0, 0, 0), ParametersProfile, DelaySlot, -1.0).delay == 0
    ensures FromMsAsWritten(TriggerProfile, 0.0, 0.0, 0.0, 1000.0).delay == 100000
    ensures FromMs(TriggerProfile, 0.0, 0.0, 0.0, 1000.0).delay == 65535
  {
    assert Get(SetDelayMsAsWritten(Timing(0, 0, 0, 0), ParametersProfile, 1000.0), DelaySlot) == 1000000;
  }

  /**
    The values of CameraParametersTest in the 10/100 ticks-per-ms revision:
    aligned values come back unchanged, misaligned ones snap to the nearest
    step of 0.1 ms (0.01 ms for the delay).
   */
  lemma TriggerTestValues()
    ensures var t := FromMs(TriggerProfile, 1.5, 45.8, 30.0, 1.64);
            t == Timing(15, 458, 300, 164)
            && GetMs(t, TriggerProfile, PulseSlot) == 1.5 && GetMs(t, TriggerProfile, IntervalSlot) == 45.8
            && GetMs(t, TriggerProfile, ExposureSlot) == 30.0 && GetMs(t, TriggerProfile, DelaySlot) == 1.64
    ensures FromMs(TriggerProfile, 1.51, 45.78, 30.07, 1.632) == Timing(15, 458, 301, 163)
  {
  }
}

=== FILE: camera_trigger.dfy ===
/**
  The camera trigger module: a mode register (active or passive), a start
  register, and the four timing registers written from a parameter set.
  The board has one camera trigger, so its channels all have index 0.
 */
module CameraTrigger {
  import opened Transport
  import opened Registers
  import opened Signal
  import opened CameraParameters

  /** Whether the board generates the camera trigger itself (active) or follows the camera (passive). */
  datatype TriggerMode = Active | Passive

  /** The register value of a trigger mode. */
  function ModeValue(m: TriggerMode): (r: int)
    ensures r == 0 || r == 1
    ensures r == 1 <==> m == Active
  {
    match m
    case Active => 1
    case Passive => 0
  }

  const ModeChannel: Channel := Channel(CameraMode, 0, false)
  const StartChannel: Channel := Channel(CameraStart, 0, false)
  const PulseChannel: Channel := Channel(CameraPulse, 0, false)
  const PeriodChannel: Channel := Channel(CameraPeriod, 0, false)
  const ExposureChannel: Channel := Channel(CameraExposure, 0, false)
  const DelayChannel: Channel := Channel(CameraDelay, 0, false)

  /** `Mode.setTriggerMode`: one direct write of the mode's value to the mode register. */
  function SetTriggerMode(m: TriggerMode, bus: Bus): (r: Step)
    ensures r.ok == NextSucceeds(bus)
    ensures r.bus.log == bus.log + [Write(CameraModeAddr, ModeValue(m))]
    ensures r.ok ==> Read(r.bus, CameraModeAddr) == ModeValue(m)
    ensures forall a :: a != CameraModeAddr ==> Read(r.bus, a) == Read(bus, a)
  {
    WriteRegister(bus, Address(ModeChannel), ModeValue(m))
  }

  /** `setActiveTrigger`: the mode register is set to 1. */
  function SetActiveTrigger(bus: Bus): (r: Step)
    ensures r.ok == NextSucceeds(bus)
    ensures r.bus.log == bus.log + [Write(CameraModeAddr, 1)]
    ensures r.ok ==> Read(r.bus, CameraModeAddr) == 1
    ensures forall a :: a != CameraModeAddr ==> Read(r.bus, a) == Read(bus, a)
  {
    SetTriggerMode(Active, bus)
  }

  /** `setPassiveTrigger`: the mode register is set to 0. */
  function SetPassiveTrigger(bus: Bus): (r: Step)
    ensures r.ok == NextSucceeds(bus)
    ensures r.bus.log == bus.log + [Write(CameraModeAddr, 0)]
    ensures r.ok ==> Read(r.bus, CameraModeAddr) == 0
    ensures forall a :: a != CameraModeAddr ==> Read(r.bus, a) == Read(bus, a)
  {
    SetTriggerMode(Passive, bus)
  }

  /** `start`: writes 1 to the start register. */
  function Start(bus: Bus): (r: Step)
    ensures r.ok == NextSucceeds(bus)
    ensures r.bus.log == bus.log + [Write(CameraStartAddr, 1)]
    ensures r.ok ==> Read(r.bus, CameraStartAddr) == 1
    ensures forall a :: a != CameraStartAddr ==> Read(r.bus, a) == Read(bus, a)
  {
    WriteRegister(bus, Address(StartChannel), 1)
  }

  /** `stop`: writes 0 to the start register. */
  function Stop(bus: Bus): (r: Step)
    ensures r.ok == NextSucceeds(bus)
    ensures r.bus.log == bus.log + [Write(CameraStartAddr, 0)]
    ensures r.ok ==> Read(r.bus, CameraStartAddr) == 0
    ensures forall a :: a != CameraStartAddr ==> Read(r.bus, a) == Read(bus, a)
  {
    WriteRegister(bus, Address(StartChannel), 0)
  }

  /** Starting then stopping leaves the trigger stopped and every other register as it was. */
  lemma StartThenStop(bus: Bus)
    requires NextSucceeds(Start(bus).bus)
    ensures Stop(Start(bus).bus).ok
    ensures Read(Stop(Start(bus).bus).bus, CameraStartAddr) == 0
    ensures Stop(Start(bus).bus).bus.log == bus.log + [Write(CameraStartAddr, 1), Write(CameraStartAddr, 0)]
    ensures forall a :: a != CameraStartAddr ==> Read(Stop(Start(bus).bus).bus, a) == Read(bus, a)
  {
  }

  /** The four writes of a parameter set, in the order they are made. */
  function ParameterWrites(t: Timing): seq<Command>
  {
    [Command(PulseChannel, t.pulse), Command(PeriodChannel, t.interval),
     Command(ExposureChannel, t.exposure), Command(DelayChannel, t.delay)]
  }

  /** The transport calls of a fully accepted parameter set. */
  function ParameterCalls(t: Timing): seq<Call>
  {
    [Write(CameraPulseAddr, t.pulse), Write(CameraPeriodAddr, t.interval),
     Write(CameraExposureAddr, t.exposure), Write(CameraDelayAddr, t.delay)]
  }

  /**
    `setParameters`: pulse, period, exposure and delay, in that order,
    stopping at the first write that fails; a value above 65535 or below 0
    fails its write without reaching the transport.
   */
  function SetParameters(t: Timing, bus: Bus): (r: Step)
    ensures r.ok ==> InRange(t, TriggerProfile) && InRange(t, ParametersProfile)
    ensures r.ok ==> r.bus.log == bus.log + ParameterCalls(t)
    ensures bus.log <= r.bus.log && |r.bus.log| <= |bus.log| + 4
  {
    var cmds := ParameterWrites(t);
    var r := WriteInOrder(cmds, bus);
    assert r.ok ==> IsValueAllowed(cmds[0].channel, t.pulse) && IsValueAllowed(cmds[1].channel, t.interval)
                    && IsValueAllowed(cmds[2].channel, t.exposure) && IsValueAllowed(cmds[3].channel, t.delay);
    assert r.ok ==> forall s: Slot :: 0 <= Get(t, s) <= 65535;
    r
  }

  /** A parameter set in range, on a device that accepts all four writes, is written in full. */
  lemma InRangeParametersAreWritten(t: Timing, bus: Bus)
    requires InRange(t, TriggerProfile) && AcceptsNext(bus, 4)
    ensures SetParameters(t, bus).ok
  {
    var cmds := ParameterWrites(t);
    assert 0 <= Get(t, PulseSlot) <= 65535 && 0 <= Get(t, IntervalSlot) <= 65535;
    assert 0 <= Get(t, ExposureSlot) <= 65535 && 0 <= Get(t, DelaySlot) <= 65535;
    var n := |bus.log|;
    assert n !in bus.refused && n + 1 !in bus.refused && n + 2 !in bus.refused && n + 3 !in bus.refused;
    var s0 := SetState(cmds[0].channel, cmds[0].value, bus);
    assert s0.ok && |s0.bus.log| == n + 1;
    var s1 := SetState(cmds[1].channel, cmds[1].value, s0.bus);
    assert s1.ok && |s1.bus.log| == n + 2;
    var s2 := SetState(cmds[2].channel, cmds[2].value, s1.bus);
    assert s2.ok && |s2.bus.log| == n + 3;
    var s3 := SetState(cmds[3].channel, cmds[3].value, s2.bus);
    assert s3.ok;
    assert cmds[1..][0] == cmds[1] && cmds[1..][1..][0] == cmds[2] && cmds[1..][1..][1..][0] == cmds[3];
    assert cmds[1..][1..][1..][1..] == [];
    assert WriteInOrder(cmds[1..][1..][1..], s2.bus) == WriteInOrder([], s3.bus);
    assert WriteInOrder(cmds[1..][1..], s1.bus) == WriteInOrder(cmds[1..][1..][1..], s2.bus);
    assert WriteInOrder(cmds[1..], s0.bus) == WriteInOrder(cmds[1..][1..], s1.bus);
    assert WriteInOrder(cmds, bus) == WriteInOrder(cmds[1..], s0.bus);
  }

  /** A fully written parameter set reads back from the four timing registers. */
  lemma ParametersReadBack(t: Timing, bus: Bus)
    requires SetParameters(t, bus).ok
    ensures var b := SetParameters(t, bus).bus;
            Read(b, CameraPulseAddr) == t.pulse && Read(b, CameraPeriodAddr) == t.interval
            && Read(b, CameraExposureAddr) == t.exposure && Read(b, CameraDelayAddr) == t.delay
  {
    var cmds := ParameterWrites(t);
    WriteInOrderReadsBack(cmds, bus);
    assert GetState(cmds[0].channel, SetParameters(t, bus).bus) == t.pulse;
    assert GetState(cmds[1].channel, SetParameters(t, bus).bus) == t.interval;
    assert GetState(cmds[2].channel, SetParameters(t, bus).bus) == t.exposure;
    assert GetState(cmds[3].channel, SetParameters(t, bus).bus) == t.delay;
  }

  /** An exposure out of range stops the set after pulse and period: the delay is never written. */
  lemma OutOfRangeExposureStopsEarly(t: Timing, bus: Bus)
    requires !(0 <= t.exposure <= 65535)
    ensures !SetParameters(t, bus).ok
    ensures |SetParameters(t, bus).bus.log| <= |bus.log| + 2
    ensures Read(SetParameters(t, bus).bus, CameraDelayAddr) == Read(bus, CameraDelayAddr)
  {
    var cmds := ParameterWrites(t);
    var r := SetParameters(t, bus);
    assert r == WriteInOrder(cmds, bus);
    var s0 := SetState(cmds[0].channel, cmds[0].value, bus);
    if !s0.ok {
      assert r == s0;
    } else {
      assert r == WriteInOrder(cmds[1..], s0.bus);
      var s1 := SetState(cmds[1].channel, cmds[1].value, s0.bus);
      assert cmds[1..][0] == cmds[1];
      if !s1.ok {
        assert r == s1;
      } else {
        assert r == WriteInOrder(cmds[1..][1..], s1.bus);
        assert cmds[1..][1..][0] == cmds[2];
        assert !IsValueAllowed(cmds[2].channel, cmds[2].value);
        assert r == Step(false, s1.bus);
        assert |s1.bus.log| == |bus.log| + 2;
        assert Read(s1.bus, CameraDelayAddr) == Read(s0.bus, CameraDelayAddr) == Read(bus, CameraDelayAddr);
      }
    }
  }
}

=== FILE: controller.dfy ===
/**
  The controller: the handshake that opens the board, the allocation of
  the requested channels, and the accessors that guard every channel
  operation with "connected, and the channel number is one of ours".

  The controller is a state record; every operation takes the device and
  returns the device after it. Allocation uses the intended factory
  behaviour (only granted channels are kept, and the camera trigger is
  handed out once); the as-written behaviour is modelled in DeviceFactory.
 */
module MicroFpgaController {
  import opened Optional
  import opened Transport
  import opened Registers
  import opened Signal
  import opened LaserParameters
  import CameraParameters
  import DeviceFactory
  import LaserTrigger
  import CameraTrigger

  /**
    The state of a controller: whether it believes the link is open, what
    the board reported, the indices of the channels of each family it owns,
    and whether it owns the camera trigger.
   */
  datatype Controller = Controller(
    connected: bool, id: int, version: int,
    ttls: seq<int>, pwms: seq<int>, lasers: seq<int>, servos: seq<int>, analogs: seq<int>,
    camera: bool)

  /** Why opening the board failed. */
  datatype Refusal = NoDevice | WrongVersion(version: int) | UnknownId(id: int)

  /** The outcome of the constructor: a controller, or the exception it throws, with the device after it. */
  datatype Opening = Opened(ctl: Controller, bus: Bus) | Failed(reason: Refusal, bus: Bus)

  /** The board identities the driver accepts. */
  predicate KnownId(id: int)
  {
    id == IdAu || id == IdAuPlus || id == IdCu
  }

  /** The boards that have analog inputs. */
  predicate HasAnalogInputs(id: int)
  {
    id == IdAu || id == IdAuPlus
  }

  /** The number of iterations of `for (i = 0; i < n; i++)`. */
  function Iterations(n: int): nat
  {
    if n < 0 then 0 else n
  }

  /** A channel list holding the indices 0, 1, 2, ... and no more than the board's capacity. */
  predicate Consecutive(s: seq<int>, capacity: nat)
  {
    |s| <= capacity && forall i :: 0 <= i < |s| ==> s[i] == i
  }

  /** Every channel list is consecutive within its family's capacity. */
  predicate Wf(ctl: Controller)
  {
    Consecutive(ctl.ttls, TtlCapacity) && Consecutive(ctl.pwms, PwmCapacity)
    && Consecutive(ctl.lasers, LaserCapacity) && Consecutive(ctl.servos, ServoCapacity)
    && Consecutive(ctl.analogs, AnalogCapacity)
  }

  /** The channels of a family allocated from a factory whose family counter is still 0. */
  lemma AllocatedConsecutive(fa: DeviceFactory.Factory, f: DeviceFactory.Family, n: nat)
    requires DeviceFactory.Counter(fa, f) == 0
    ensures Consecutive(DeviceFactory.Allocate(fa, f, n).1, DeviceFactory.Capacity(f))
    ensures |DeviceFactory.Allocate(fa, f, n).1| == DeviceFactory.Min(n, DeviceFactory.Capacity(f))
  {
  }

  /**
    The allocation part of the constructor, on a board whose handshake
    passed: TTLs, PWMs, lasers, servos and (on Au and Au+ only) analog
    inputs from a fresh factory, then the camera trigger, which a fresh
    factory always grants.
   */
  function Populate(id: int, nLasers: int, nTtls: int, nServos: int, nPwms: int, nAis: int, useCamera: bool)
    : (r: Controller)
    ensures Wf(r) && r.connected && r.id == id && r.version == CurrentVersion && r.camera == useCamera
    ensures |r.ttls| == DeviceFactory.Min(Iterations(nTtls), TtlCapacity)
    ensures |r.pwms| == DeviceFactory.Min(Iterations(nPwms), PwmCapacity)
    ensures |r.lasers| == DeviceFactory.Min(Iterations(nLasers), LaserCapacity)
    ensures |r.servos| == DeviceFactory.Min(Iterations(nServos), ServoCapacity)
    ensures |r.analogs| == (if HasAnalogInputs(id) then DeviceFactory.Min(Iterations(nAis), AnalogCapacity) else 0)
  {
    var fa0 := DeviceFactory.Fresh;
    var t := DeviceFactory.Allocate(fa0, DeviceFactory.Ttls, Iterations(nTtls));
    var p := DeviceFactory.Allocate(t.0, DeviceFactory.Pwms, Iterations(nPwms));
    var l := DeviceFactory.Allocate(p.0, DeviceFactory.Lasers, Iterations(nLasers));
    var s := DeviceFactory.Allocate(l.0, DeviceFactory.Servos, Iterations(nServos));
    var a := if HasAnalogInputs(id) then DeviceFactory.Allocate(s.0, DeviceFactory.AnalogInputs, Iterations(nAis))
             else (s.0, []);
    AllocatedConsecutive(fa0, DeviceFactory.Ttls, Iterations(nTtls));
    AllocatedConsecutive(t.0, DeviceFactory.Pwms, Iterations(nPwms));
    AllocatedConsecutive(p.0, DeviceFactory.Lasers, Iterations(nLasers));
    AllocatedConsecutive(l.0, DeviceFactory.Servos, Iterations(nServos));
    AllocatedConsecutive(s.0, DeviceFactory.AnalogInputs, Iterations(nAis));
    var cam := DeviceFactory.GetCameraTrigger(a.0);
    Controller(true, id, CurrentVersion, t.1, p.1, l.1, s.1, a.1, useCamera && cam.1)
  }

  /**
    The constructor: connect; read the version and the identity; on a
    mismatch disconnect and fail, reporting the version before the identity;
    otherwise allocate the channels and take the camera trigger, or, when
    the camera is not wanted, set it passive.
   */
  function Open(nLasers: int, nTtls: int, nServos: int, nPwms: int, nAis: int, useCamera: bool, bus: Bus): (r: Opening)
    ensures (r.Failed? && r.reason == NoDevice) <==> !NextSucceeds(bus)
    ensures r.Failed? && r.reason == NoDevice ==> r.bus.log == bus.log + [Connect]
    ensures r.Opened? <==> NextSucceeds(bus) && Read(bus, VersionAddr) == CurrentVersion && KnownId(Read(bus, IdAddr))
    ensures NextSucceeds(bus) && Read(bus, VersionAddr) != CurrentVersion ==>
              r == Failed(WrongVersion(Read(bus, VersionAddr)), r.bus)
    ensures NextSucceeds(bus) && Read(bus, VersionAddr) == CurrentVersion && !KnownId(Read(bus, IdAddr)) ==>
              r == Failed(UnknownId(Read(bus, IdAddr)), r.bus)
    ensures r.Failed? && r.reason != NoDevice ==> r.bus.log == bus.log + [Connect, Disconnect]
    ensures r.bus.regs == bus.regs || (r.Opened? && !useCamera)
    ensures r.Opened? ==> r.ctl == Populate(Read(bus, IdAddr), nLasers, nTtls, nServos, nPwms, nAis, useCamera)
    ensures r.Opened? && useCamera ==> r.bus.log == bus.log + [Connect]
    ensures r.Opened? && !useCamera ==> r.bus.log == bus.log + [Connect, Write(CameraModeAddr, 0)]
  {
    var c := OpenLink(bus);
    if !c.ok then Failed(NoDevice, c.bus)
    else
      var version := Read(c.bus, VersionAddr);
      var id := Read(c.bus, IdAddr);
      if version == CurrentVersion && KnownId(id) then
        var ctl := Populate(id, nLasers, nTtls, nServos, nPwms, nAis, useCamera);
        if useCamera then Opened(ctl, c.bus)
        else Opened(ctl, CameraTrigger.SetPassiveTrigger(c.bus).bus)
      else
        var d := CloseLink(c.bus);
        if version != CurrentVersion then Failed(WrongVersion(version), d.bus)
        else Failed(UnknownId(id), d.bus)
  }

  /** A Cu board has no analog inputs, whatever was asked for: every analog read returns -1. */
  lemma CuHasNoAnalogInputs(nLasers: int, nTtls: int, nServos: int, nPwms: int, nAis: int, useCamera: bool,
                            bus: Bus, channel: int)
    requires Read(bus, IdAddr) == IdCu
    requires Open(nLasers, nTtls, nServos, nPwms, nAis, useCamera, bus).Opened?
    ensures var o := Open(nLasers, nTtls, nServos, nPwms, nAis, useCamera, bus);
            |o.ctl.analogs| == 0 && GetAnalogInputState(o.ctl, channel, o.bus) == -1
  {
  }

  /** The guard of every per-channel accessor. */
  predicate Guard(ctl: Controller, channels: seq<int>, channel: int)
  {
    ctl.connected && 0 <= channel < |channels|
  }

  /** `setTTLState`: writes ON for true and OFF for false to the caller's TTL. */
  function SetTtlState(ctl: Controller, channel: int, state: bool, bus: Bus): (r: Step)
    ensures !Guard(ctl, ctl.ttls, channel) ==> r == Step(false, bus)
    ensures Guard(ctl, ctl.ttls, channel) ==>
              r.ok == NextSucceeds(bus)
              && r.bus.log == bus.log + [Write(TtlBase + ctl.ttls[channel], if state then TtlOn else TtlOff)]
    ensures r.ok ==> GetTtlState(ctl, channel, r.bus) == state
  {
    if Guard(ctl, ctl.ttls, channel) then SetState(TtlChannel(ctl.ttls[channel]), if state then TtlOn else TtlOff, bus)
    else Step(false, bus)
  }

  /** `getTTLState`: true exactly when the TTL reads ON. */
  function GetTtlState(ctl: Controller, channel: int, bus: Bus): (r: bool)
    ensures r ==> Guard(ctl, ctl.ttls, channel)
    ensures Guard(ctl, ctl.ttls, channel) ==> (r <==> Read(bus, TtlBase + ctl.ttls[channel]) == TtlOn)
  {
    Guard(ctl, ctl.ttls, channel) && GetState(TtlChannel(ctl.ttls[channel]), bus) == TtlOn
  }

  /** `setPWMState`: a value in [0, 255] is written to the caller's PWM; anything else is refused. */
  function SetPwmState(ctl: Controller, channel: int, state: int, bus: Bus): (r: Step)
    ensures !Guard(ctl, ctl.pwms, channel) || !(0 <= state <= 255) ==> r == Step(false, bus)
    ensures Guard(ctl, ctl.pwms, channel) && 0 <= state <= 255 ==>
              r.ok == NextSucceeds(bus) && r.bus.log == bus.log + [Write(PwmBase + ctl.pwms[channel], state)]
    ensures r.ok ==> GetPwmState(ctl, channel, r.bus) == state
  {
    if Guard(ctl, ctl.pwms, channel) then SetState(PwmChannel(ctl.pwms[channel]), state, bus)
    else Step(false, bus)
  }

  /** `getPWMState`: the raw register of the caller's PWM, or -1. */
  function GetPwmState(ctl: Controller, channel: int, bus: Bus): (r: int)
    ensures !Guard(ctl, ctl.pwms, channel) ==> r == -1
    ensures Guard(ctl, ctl.pwms, channel) ==> r == Read(bus, PwmBase + ctl.pwms[channel])
  {
    if Guard(ctl, ctl.pwms, channel) then GetState(PwmChannel(ctl.pwms[channel]), bus) else -1
  }

  /** `setServoState`: a value in [0, 65535] is written to the caller's servo; anything else is refused. */
  function SetServoState(ctl: Controller, channel: int, state: int, bus: Bus): (r: Step)
    ensures !Guard(ctl, ctl.servos, channel) || !(0 <= state <= 65535) ==> r == Step(false, bus)
    ensures Guard(ctl, ctl.servos, channel) && 0 <= state <= 65535 ==>
              r.ok == NextSucceeds(bus) && r.bus.log == bus.log + [Write(ServoBase + ctl.servos[channel], state)]
    ensures r.ok ==> GetServoState(ctl, channel, r.bus) == state
  {
    if Guard(ctl, ctl.servos, channel) then SetState(ServoChannel(ctl.servos[channel]), state, bus)
    else Step(false, bus)
  }

  /** `getServoState`: the raw register of the caller's servo, or -1. */
  function GetServoState(ctl: Controller, channel: int, bus: Bus): (r: int)
    ensures !Guard(ctl, ctl.servos, channel) ==> r == -1
    ensures Guard(ctl, ctl.servos, channel) ==> r == Read(bus, ServoBase + ctl.servos[channel])
  {
    if Guard(ctl, ctl.servos, channel) then GetState(ServoChannel(ctl.servos[channel]), bus) else -1
  }

  /** `getAnalogInputState`: the raw register of the caller's analog input, or -1. */
  function GetAnalogInputState(ctl: Controller, channel: int, bus: Bus): (r: int)
    ensures !Guard(ctl, ctl.analogs, channel) ==> r == -1
    ensures Guard(ctl, ctl.analogs, channel) ==> r == Read(bus, AnalogBase + ctl.analogs[channel])
  {
    if Guard(ctl, ctl.analogs, channel) then GetState(AnalogChannel(ctl.analogs[channel]), bus) else -1
  }

  /** The laser trigger behind a channel number the guard accepted. */
  function Laser(ctl: Controller, channel: int): LaserTrigger.LaserTrigger
    requires 0 <= channel < |ctl.lasers|
  {
    LaserTrigger.LaserTrigger(ctl.lasers[channel])
  }

  /** `setLaserModeState`: a mode value in [0, 4] is written to the caller's laser. */
  function SetLaserModeState(ctl: Controller, channel: int, state: int, bus: Bus): (r: Step)
    ensures !Guard(ctl, ctl.lasers, channel) || !(0 <= state <= 4) ==> r == Step(false, bus)
    ensures Guard(ctl, ctl.lasers, channel) && 0 <= state <= 4 ==>
              r.ok == NextSucceeds(bus) && r.bus.log == bus.log + [Write(LaserModeBase + ctl.lasers[channel], state)]
    ensures r.ok ==> GetLaserModeState(ctl, channel, r.bus) == state
  {
    if Guard(ctl, ctl.lasers, channel) then LaserTrigger.SetMode(Laser(ctl, channel), state, bus)
    else Step(false, bus)
  }

  /** `getLaserModeState`: the raw mode register of the caller's laser, or -1. */
  function GetLaserModeState(ctl: Controller, channel: int, bus: Bus): (r: int)
    ensures !Guard(ctl, ctl.lasers, channel) ==> r == -1
    ensures Guard(ctl, ctl.lasers, channel) ==> r == Read(bus, LaserModeBase + ctl.lasers[channel])
  {
    if Guard(ctl, ctl.lasers, channel) then LaserTrigger.GetMode(Laser(ctl, channel), bus) else -1
  }

  /** `setLaserDurationState`: a duration in [0, 65535] is written to the caller's laser. */
  function SetLaserDurationState(ctl: Controller, channel: int, state: int, bus: Bus): (r: Step)
    ensures !Guard(ctl, ctl.lasers, channel) || !(0 <= state <= 65535) ==> r == Step(false, bus)
    ensures Guard(ctl, ctl.lasers, channel) && 0 <= state <= 65535 ==>
              r.ok == NextSucceeds(bus)
              && r.bus.log == bus.log + [Write(LaserDurationBase + ctl.lasers[channel], state)]
    ensures r.ok ==> GetLaserDurationState(ctl, channel, r.bus) == state
  {
    if Guard(ctl, ctl.lasers, channel) then LaserTrigger.SetDuration(Laser(ctl, channel), state, bus)
    else Step(false, bus)
  }

  /** `getLaserDurationState`: the raw duration register of the caller's laser, or -1. */
  function GetLaserDurationState(ctl: Controller, channel: int, bus: Bus): (r: int)
    ensures !Guard(ctl, ctl.lasers, channel) ==> r == -1
    ensures Guard(ctl, ctl.lasers, channel) ==> r == Read(bus, LaserDurationBase + ctl.lasers[channel])
  {
    if Guard(ctl, ctl.lasers, channel) then LaserTrigger.GetDuration(Laser(ctl, channel), bus) else -1
  }

  /** `setLaserSequenceState`: a sequence in [0, 65535] is written to the caller's laser. */
  function SetLaserSequenceState(ctl: Controller, channel: int, state: int, bus: Bus): (r: Step)
    ensures !Guard(ctl, ctl.lasers, channel) || !(0 <= state <= 65535) ==> r == Step(false, bus)
    ensures Guard(ctl, ctl.lasers, channel) && 0 <= state <= 65535 ==>
              r.ok == NextSucceeds(bus)
              && r.bus.log == bus.log + [Write(LaserSequenceBase + ctl.lasers[channel], state)]
    ensures r.ok ==> GetLaserSequenceState(ctl, channel, r.bus) == state
  {
    if Guard(ctl, ctl.lasers, channel) then LaserTrigger.SetSequence(Laser(ctl, channel), state, bus)
    else Step(false, bus)
  }

  /** `getLaserSequenceState`: the raw sequence register of the caller's laser, or -1. */
  function GetLaserSequenceState(ctl: Controller, channel: int, bus: Bus): (r: int)
    ensures !Guard(ctl, ctl.lasers, channel) ==> r == -1
    ensures Guard(ctl, ctl.lasers, channel) ==> r == Read(bus, LaserSequenceBase + ctl.lasers[channel])
  {
    if Guard(ctl, ctl.lasers, channel) then LaserTrigger.GetSequence(Laser(ctl, channel), bus) else -1
  }

  /**
    `setLaserParameters` as written: the parameters are written to the
    caller's laser, but the method returns false whatever the outcome.
   */
  function SetLaserParametersAsWritten(ctl: Controller, channel: int, p: Params, bus: Bus): (r: Step)
    ensures !r.ok
    ensures !Guard(ctl, ctl.lasers, channel) ==> r.bus == bus
  {
    if Guard(ctl, ctl.lasers, channel) then Step(false, LaserTrigger.SetParameters(Laser(ctl, channel), p, bus).bus)
    else Step(false, bus)
  }

  /** `setLaserParameters` as intended: the outcome of the writes is reported. */
  function SetLaserParameters(ctl: Controller, channel: int, p: Params, bus: Bus): (r: Step)
    ensures !Guard(ctl, ctl.lasers, channel) ==> r == Step(false, bus)
    ensures r.ok ==> Valid(p) && GetLaserParameters(ctl, channel, r.bus) == Some(p)
    ensures r.bus == SetLaserParametersAsWritten(ctl, channel, p, bus).bus
  {
    if Guard(ctl, ctl.lasers, channel) then
      var s := LaserTrigger.SetParameters(Laser(ctl, channel), p, bus);
      assert s.ok ==> GetLaserParameters(ctl, channel, s.bus) == Some(p) by {
        if s.ok { LaserTrigger.ParametersRoundTrip(Laser(ctl, channel), p, bus); }
      }
      s
    else Step(false, bus)
  }

  /**
    As written, a parameter set that every write accepted is reported as a
    failure, though reading it back gives exactly what was set; the
    intended method reports success.
   */
  lemma LaserParametersSuccessReportedAsFailure(ctl: Controller, channel: int, p: Params, bus: Bus)
    requires Guard(ctl, ctl.lasers, channel)
    requires LaserTrigger.SetParameters(Laser(ctl, channel), p, bus).ok
    ensures !SetLaserParametersAsWritten(ctl, channel, p, bus).ok
    ensures GetLaserParameters(ctl, channel, SetLaserParametersAsWritten(ctl, channel, p, bus).bus) == Some(p)
    ensures SetLaserParameters(ctl, channel, p, bus).ok
  {
    LaserTrigger.ParametersRoundTrip(Laser(ctl, channel), p, bus);
  }

  /** `getLaserParameters`: the caller's laser's parameters, or `null`. */
  function GetLaserParameters(ctl: Controller, channel: int, bus: Bus): (r: Option<Params>)
    ensures r.Some? <==> Guard(ctl, ctl.lasers, channel)
    ensures r.Some? ==> Valid(r.value)
  {
    if Guard(ctl, ctl.lasers, channel) then Some(LaserTrigger.GetParameters(Laser(ctl, channel), bus)) else None
  }

  /** The message of `getLaserParametersPretty` for a refused request. */
  const NoLaserMessage: string := "Not connected, or wrong channel number."

  /** `getLaserParametersPretty`: the text form of the caller's laser's parameters, or the fixed message. */
  function GetLaserParametersPretty(ctl: Controller, channel: int, bus: Bus): (r: string)
    ensures !Guard(ctl, ctl.lasers, channel) ==> r == NoLaserMessage
    ensures Guard(ctl, ctl.lasers, channel) ==> Parse(r) == GetLaserParameters(ctl, channel, bus)
  {
    if Guard(ctl, ctl.lasers, channel) then
      var p := LaserTrigger.GetParameters(Laser(ctl, channel), bus);
      ParseToString(p);
      ToString(p)
    else NoLaserMessage
  }

  /** The guard of every camera operation: connected, and the camera trigger is ours. */
  predicate CameraGuard(ctl: Controller)
  {
    ctl.connected && ctl.camera
  }

  /** `setActiveTrigger`: writes 1 to the camera mode register, or fails without a call. */
  function SetActiveTrigger(ctl: Controller, bus: Bus): (r: Step)
    ensures !CameraGuard(ctl) ==> r == Step(false, bus)
    ensures CameraGuard(ctl) ==> r.ok == NextSucceeds(bus) && r.bus.log == bus.log + [Write(CameraModeAddr, 1)]
    ensures r.ok ==> Read(r.bus, CameraModeAddr) == 1
    ensures forall a :: a != CameraModeAddr ==> Read(r.bus, a) == Read(bus, a)
  {
    if CameraGuard(ctl) then CameraTrigger.SetActiveTrigger(bus) else Step(false, bus)
  }

  /** `setPassiveTrigger`: writes 0 to the camera mode register, or fails without a call. */
  function SetPassiveTrigger(ctl: Controller, bus: Bus): (r: Step)
    ensures !CameraGuard(ctl) ==> r == Step(false, bus)
    ensures CameraGuard(ctl) ==> r.ok == NextSucceeds(bus) && r.bus.log == bus.log + [Write(CameraModeAddr, 0)]
    ensures r.ok ==> Read(r.bus, CameraModeAddr) == 0
    ensures forall a :: a != CameraModeAddr ==> Read(r.bus, a) == Read(bus, a)
  {
    if CameraGuard(ctl) then CameraTrigger.SetPassiveTrigger(bus) else Step(false, bus)
  }

  /** `startCamera`: writes 1 to the start register, or fails without a call. */
  function StartCamera(ctl: Controller, bus: Bus): (r: Step)
    ensures !CameraGuard(ctl) ==> r == Step(false, bus)
    ensures CameraGuard(ctl) ==> r.ok == NextSucceeds(bus) && r.bus.log == bus.log + [Write(CameraStartAddr, 1)]
    ensures r.ok ==> Read(r.bus, CameraStartAddr) == 1
    ensures forall a :: a != CameraStartAddr ==> Read(r.bus, a) == Read(bus, a)
  {
    if CameraGuard(ctl) then CameraTrigger.Start(bus) else Step(false, bus)
  }

  /** `stopCamera`: writes 0 to the start register, or fails without a call. */
  function StopCamera(ctl: Controller, bus: Bus): (r: Step)
    ensures !CameraGuard(ctl) ==> r == Step(false, bus)
    ensures CameraGuard(ctl) ==> r.ok == NextSucceeds(bus) && r.bus.log == bus.log + [Write(CameraStartAddr, 0)]
    ensures r.ok ==> Read(r.bus, CameraStartAddr) == 0
    ensures forall a :: a != CameraStartAddr ==> Read(r.bus, a) == Read(bus, a)
  {
    if CameraGuard(ctl) then CameraTrigger.Stop(bus) else Step(false, bus)
  }

  /**
    `setCameraTriggerParameters`: the trigger's four timing writes, or
    failure without a call. In range on a device that accepts the four
    writes, it succeeds, and every timing register reads back its value.
   */
  function SetCameraTriggerParameters(ctl: Controller, t: CameraParameters.Timing, bus: Bus): (r: Step)
    ensures !CameraGuard(ctl) ==> r == Step(false, bus)
    ensures CameraGuard(ctl) ==> r == CameraTrigger.SetParameters(t, bus)
    ensures CameraGuard(ctl) && CameraParameters.InRange(t, CameraParameters.TriggerProfile) && AcceptsNext(bus, 4)
            ==> r.ok
    ensures r.ok ==> CameraParameters.InRange(t, CameraParameters.ParametersProfile)
    ensures r.ok ==> r.bus.log == bus.log + CameraTrigger.ParameterCalls(t)
    ensures r.ok ==> Read(r.bus, CameraPulseAddr) == t.pulse && Read(r.bus, CameraPeriodAddr) == t.interval
                     && Read(r.bus, CameraExposureAddr) == t.exposure && Read(r.bus, CameraDelayAddr) == t.delay
  {
    if CameraGuard(ctl) then
      var s := CameraTrigger.SetParameters(t, bus);
      assert CameraParameters.InRange(t, CameraParameters.TriggerProfile) && AcceptsNext(bus, 4) ==> s.ok by {
        if CameraParameters.InRange(t, CameraParameters.TriggerProfile) && AcceptsNext(bus, 4) {
          CameraTrigger.InRangeParametersAreWritten(t, bus);
        }
      }
      assert s.ok ==> Read(s.bus, CameraPulseAddr) == t.pulse && Read(s.bus, CameraPeriodAddr) == t.interval
                      && Read(s.bus, CameraExposureAddr) == t.exposure && Read(s.bus, CameraDelayAddr) == t.delay by {
        if s.ok { CameraTrigger.ParametersReadBack(t, bus); }
      }
      s
    else Step(false, bus)
  }

  /**
    The fixed messages of `getCameraTriggerParametersPretty`; None when the
    text comes from the camera trigger itself.
   */
  function CameraParametersMessage(ctl: Controller): (r: Option<string>)
    ensures r == Some("Not connected.") <==> !ctl.connected
    ensures r == Some("Camera not instantiated.") <==> ctl.connected && !ctl.camera
    ensures r.None? <==> CameraGuard(ctl)
  {
    if !ctl.connected then Some("Not connected.")
    else if ctl.camera then None
    else Some("Camera not instantiated.")
  }

  /** `getID`: the board's name, "Unknown device" for any other identity, or "Not connected". */
  function GetId(ctl: Controller): (r: string)
    ensures !ctl.connected <==> r == "Not connected"
    ensures ctl.connected ==> (r == "Au" <==> ctl.id == IdAu)
    ensures ctl.connected ==> (r == "Cu" <==> ctl.id == IdCu)
    ensures ctl.connected ==> (r == "Au+" <==> ctl.id == IdAuPlus)
    ensures ctl.connected ==> (r == "Unknown device" <==> !KnownId(ctl.id))
  {
    if ctl.connected then
      if ctl.id == IdAu then "Au"
      else if ctl.id == IdCu then "Cu"
      else if ctl.id == IdAuPlus then "Au+"
      else "Unknown device"
    else "Not connected"
  }

  /**
    On a board that answers with the current version and a known identity,
    the controller opens and names its board: one of "Au", "Cu" and "Au+", never
    "Unknown device", and the name is the one of the identity register read
    while opening.
   */
  lemma OpenedBoardIsNamed(nLasers: int, nTtls: int, nServos: int, nPwms: int, nAis: int, useCamera: bool, bus: Bus)
    requires NextSucceeds(bus) && Read(bus, VersionAddr) == CurrentVersion && KnownId(Read(bus, IdAddr))
    ensures Open(nLasers, nTtls, nServos, nPwms, nAis, useCamera, bus).Opened?
    ensures var name := GetId(Open(nLasers, nTtls, nServos, nPwms, nAis, useCamera, bus).ctl);
            (name == "Au" <==> Read(bus, IdAddr) == IdAu)
            && (name == "Cu" <==> Read(bus, IdAddr) == IdCu)
            && (name == "Au+" <==> Read(bus, IdAddr) == IdAuPlus)
  {
    var ctl := Open(nLasers, nTtls, nServos, nPwms, nAis, useCamera, bus).ctl;
    assert ctl.connected && ctl.id == Read(bus, IdAddr);
  }

  /** Connected controllers on boards of different known identities report different names. */
  lemma IdNamesDistinct(c1: Controller, c2: Controller)
    requires c1.connected && c2.connected && KnownId(c1.id) && KnownId(c2.id)
    ensures GetId(c1) == GetId(c2) <==> c1.id == c2.id
  {
  }

  /** `disconnect`: the controller is connected afterwards exactly when the transport refused to close. */
  function Close(ctl: Controller, bus: Bus): (r: (Controller, Bus))
    ensures r.0.connected <==> !NextSucceeds(bus)
    ensures r.0 == ctl.(connected := r.0.connected)
    ensures r.1.log == bus.log + [Disconnect] && r.1.regs == bus.regs
    ensures r.1.refused == bus.refused
  {
    var c := CloseLink(bus);
    (ctl.(connected := !c.ok), c.bus)
  }

  /**
    After a disconnect the transport accepted, every accessor returns its
    sentinel and makes no transport call.
   */
  lemma DisconnectedGivesSentinels(ctl: Controller, bus: Bus, channel: int, state: int, on: bool, p: Params,
                                   t: CameraParameters.Timing, later: Bus)
    requires NextSucceeds(bus)
    ensures var c := Close(ctl, bus).0;
            SetTtlState(c, channel, on, later) == Step(false, later) && !GetTtlState(c, channel, later)
            && SetPwmState(c, channel, state, later) == Step(false, later) && GetPwmState(c, channel, later) == -1
            && SetServoState(c, channel, state, later) == Step(false, later) && GetServoState(c, channel, later) == -1
            && GetAnalogInputState(c, channel, later) == -1
            && SetLaserModeState(c, channel, state, later) == Step(false, later)
            && GetLaserModeState(c, channel, later) == -1
            && SetLaserDurationState(c, channel, state, later) == Step(false, later)
            && GetLaserDurationState(c, channel, later) == -1
            && SetLaserSequenceState(c, channel, state, later) == Step(false, later)
            && GetLaserSequenceState(c, channel, later) == -1
            && SetLaserParameters(c, channel, p, later) == Step(false, later)
            && GetLaserParameters(c, channel, later) == None
            && GetLaserParametersPretty(c, channel, later) == NoLaserMessage
            && SetActiveTrigger(c, later) == Step(false, later) && SetPassiveTrigger(c, later) == Step(false, later)
            && StartCamera(c, later) == Step(false, later) && StopCamera(c, later) == Step(false, later)
            && SetCameraTriggerParameters(c, t, later) == Step(false, later)
            && GetId(c) == "Not connected"
  {
  }

  /** An opened controller's channels are all on the board, so no two of its channels share a register. */
  lemma OpenedChannelsOnBoard(ctl: Controller, i: int)
    requires Wf(ctl)
    ensures 0 <= i < |ctl.ttls| ==> OnBoard(TtlChannel(ctl.ttls[i]))
    ensures 0 <= i < |ctl.pwms| ==> OnBoard(PwmChannel(ctl.pwms[i]))
    ensures 0 <= i < |ctl.servos| ==> OnBoard(ServoChannel(ctl.servos[i]))
    ensures 0 <= i < |ctl.analogs| ==> OnBoard(AnalogChannel(ctl.analogs[i]))
    ensures 0 <= i < |ctl.lasers| ==> OnBoard(LaserTrigger.ModeChannel(Laser(ctl, i)))
  {
  }

  /** Writing one TTL of an opened controller leaves every other TTL reading what it read. */
  lemma TtlWritesIndependent(ctl: Controller, i: int, j: int, on: bool, bus: Bus)
    requires Wf(ctl) && Guard(ctl, ctl.ttls, i) && Guard(ctl, ctl.ttls, j) && i != j
    ensures GetTtlState(ctl, j, SetTtlState(ctl, i, on, bus).bus) == GetTtlState(ctl, j, bus)
  {
  }
}

=== FILE: device_factory.dfy ===
/**
  The device factory: hands out the channels of each family in index
  order, 0, 1, 2, ..., until the family's capacity is used up, after which
  it hands out nothing. The factory is a value here; each request returns
  the updated factory with the index it granted, if any.
 */
module DeviceFactory {
  import opened Optional
  import opened Registers

  /** The families of channels the factory counts. */
  datatype Family = Ttls | Pwms | Lasers | Servos | AnalogInputs

  /** How many channels of the family the board has (the controller's `NM_*` constants). */
  function Capacity(f: Family): nat
  {
    match f
    case Ttls => TtlCapacity
    case Pwms => PwmCapacity
    case Lasers => LaserCapacity
    case Servos => ServoCapacity
    case AnalogInputs => AnalogCapacity
  }

  /** The counters: how many channels of each family were handed out, and the camera counter. */
  datatype Factory = Factory(ttls: int, pwms: int, lasers: int, servos: int, analogs: int, camera: int)

  /** A new factory: every counter at 0. */
  const Fresh: Factory := Factory(0, 0, 0, 0, 0, 0)

  function Counter(fa: Factory, f: Family): int
  {
    match f
    case Ttls => fa.ttls
    case Pwms => fa.pwms
    case Lasers => fa.lasers
    case Servos => fa.servos
    case AnalogInputs => fa.analogs
  }

  function WithCounter(fa: Factory, f: Family, v: int): (r: Factory)
    ensures Counter(r, f) == v
    ensures forall g: Family :: g != f ==> Counter(r, g) == Counter(fa, g)
    ensures r.camera == fa.camera
  {
    match f
    case Ttls => fa.(ttls := v)
    case Pwms => fa.(pwms := v)
    case Lasers => fa.(lasers := v)
    case Servos => fa.(servos := v)
    case AnalogInputs => fa.(analogs := v)
  }

  /** `getNum*Left`: the capacity minus what was handed out. */
  function NumLeft(fa: Factory, f: Family): (r: int)
    ensures Wf(fa) ==> 0 <= r <= Capacity(f)
  {
    Capacity(f) - Counter(fa, f)
  }

  /** Every counter lies between 0 and its family's capacity. */
  predicate Wf(fa: Factory)
  {
    forall f: Family :: 0 <= Counter(fa, f) <= Capacity(f)
  }

  /** The outcome of one request: the factory after it and the index handed out, if any (`null` is None). */
  datatype Grant = Grant(factory: Factory, index: Option<int>)

  /**
    `getTTL`, `getPWM`, `getLaser`, `getServo`, `getAI`: while channels are
    left, hand out the next index and count it; otherwise hand out nothing.
   */
  function Get(fa: Factory, f: Family): (r: Grant)
    ensures r.index.Some? <==> NumLeft(fa, f) > 0
    ensures r.index.Some? ==> r.index.value == Counter(fa, f) && Counter(r.factory, f) == Counter(fa, f) + 1
    ensures r.index.None? ==> r.factory == fa
    ensures forall g: Family :: g != f ==> Counter(r.factory, g) == Counter(fa, g)
    ensures r.factory.camera == fa.camera
    ensures Wf(fa) ==> Wf(r.factory)
  {
    if NumLeft(fa, f) > 0 then Grant(WithCounter(fa, f, Counter(fa, f) + 1), Some(Counter(fa, f)))
    else Grant(fa, None)
  }

  /** Requesting twice never hands out the same index twice. */
  lemma GetTwiceDistinct(fa: Factory, f: Family)
    requires Get(fa, f).index.Some? && Get(Get(fa, f).factory, f).index.Some?
    ensures Get(Get(fa, f).factory, f).index.value == Get(fa, f).index.value + 1
  {
  }

  /**
    The controller's allocation loop as written: `n` requests, each result
    appended to the list, so a request past the capacity appends a `null`.
   */
  function AllocateAsWritten(fa: Factory, f: Family, n: nat): (r: (Factory, seq<Option<int>>))
    ensures |r.1| == n
    ensures forall i :: 0 <= i < n ==> (r.1[i].Some? <==> Counter(fa, f) + i < Capacity(f))
    ensures forall i :: 0 <= i < n && r.1[i].Some? ==> r.1[i].value == Counter(fa, f) + i
    ensures forall g: Family :: g != f ==> Counter(r.0, g) == Counter(fa, g)
    ensures r.0.camera == fa.camera
    ensures Wf(fa) ==> Wf(r.0)
    decreases n
  {
    if n == 0 then (fa, [])
    else
      var g := Get(fa, f);
      var rest := AllocateAsWritten(g.factory, f, n - 1);
      assert g.index.None? ==> Counter(fa, f) >= Capacity(f);
      assert forall i :: 0 < i < n ==> ([g.index] + rest.1)[i] == rest.1[i - 1];
      (rest.0, [g.index] + rest.1)
  }

  /**
    Each granted request takes one from what is left, so after `n` requests
    as written a family has `n` fewer left, or none once it runs out.
   */
  lemma {:induction false} AllocateCountsDown(fa: Factory, f: Family, n: nat)
    requires Wf(fa)
    ensures NumLeft(AllocateAsWritten(fa, f, n).0, f) == if n <= NumLeft(fa, f) then NumLeft(fa, f) - n else 0
    decreases n
  {
    if n > 0 {
      AllocateCountsDown(Get(fa, f).factory, f, n - 1);
    }
  }

  /** The smaller of two naturals. */
  function Min(a: nat, b: nat): nat
  {
    if a <= b then a else b
  }

  /** How many of `n` requests the factory can grant. */
  function Grantable(fa: Factory, f: Family, n: nat): nat
  {
    if NumLeft(fa, f) <= 0 then 0 else Min(n, NumLeft(fa, f))
  }

  /**
    Allocation as intended: `n` requests, keeping only the channels handed
    out, so the list holds consecutive indices and no `null`.
   */
  function Allocate(fa: Factory, f: Family, n: nat): (r: (Factory, seq<int>))
    ensures |r.1| == Grantable(fa, f, n)
    ensures forall i :: 0 <= i < |r.1| ==> r.1[i] == Counter(fa, f) + i
    ensures forall g: Family :: g != f ==> Counter(r.0, g) == Counter(fa, g)
    ensures r.0.camera == fa.camera
    ensures Wf(fa) ==> Wf(r.0)
    decreases n
  {
    if n == 0 then (fa, [])
    else
      var g := Get(fa, f);
      if g.index.None? then (fa, [])
      else
        var kept := Allocate(g.factory, f, n - 1);
        assert forall i :: 0 < i < |[g.index.value] + kept.1| ==> ([g.index.value] + kept.1)[i] == kept.1[i - 1];
        (kept.0, [g.index.value] + kept.1)
  }

  /** The granted entries of a list: the values of its `Some` entries, in order. */
  function Granted(s: seq<Option<int>>): (r: seq<int>)
    ensures |r| <= |s|
  {
    if s == [] then []
    else if s[0].Some? then [s[0].value] + Granted(s[1..])
    else Granted(s[1..])
  }

  /** A list of `k` nulls has nothing granted. */
  lemma {:induction false} GrantedOfNulls(s: seq<Option<int>>)
    requires forall i :: 0 <= i < |s| ==> s[i].None?
    ensures Granted(s) == []
    decreases |s|
  {
    if s != [] {
      assert forall i :: 0 <= i < |s[1..]| ==> s[1..][i] == s[i + 1];
      GrantedOfNulls(s[1..]);
    }
  }

  /** The intended allocation is the as-written one with its nulls dropped, and it ends in the same factory. */
  lemma {:induction false} AllocateDropsNulls(fa: Factory, f: Family, n: nat)
    ensures Allocate(fa, f, n).1 == Granted(AllocateAsWritten(fa, f, n).1)
    ensures Allocate(fa, f, n).0 == AllocateAsWritten(fa, f, n).0
    decreases n
  {
    if n > 0 {
      var g := Get(fa, f);
      var w := AllocateAsWritten(fa, f, n);
      assert w.1[1..] == AllocateAsWritten(g.factory, f, n - 1).1;
      if g.index.None? {
        assert forall i :: 0 <= i < |w.1| ==> w.1[i].None?;
        GrantedOfNulls(w.1);
        NoneStaysNone(fa, f, n);
      } else {
        AllocateDropsNulls(g.factory, f, n - 1);
      }
    }
  }

  /** Once a family is used up, further requests change nothing. */
  lemma {:induction false} NoneStaysNone(fa: Factory, f: Family, n: nat)
    requires NumLeft(fa, f) <= 0
    ensures AllocateAsWritten(fa, f, n).0 == fa
    decreases n
  {
    if n > 0 {
      NoneStaysNone(fa, f, n - 1);
    }
  }

  /**
    From a fresh factory, asking for more channels than the board has
    yields a list as long as the request whose entries past the capacity
    are `null`; the intended allocation stops at the capacity.
   */
  lemma NullsPastCapacity(f: Family, n: nat)
    requires n > Capacity(f)
    ensures |AllocateAsWritten(Fresh, f, n).1| == n
    ensures AllocateAsWritten(Fresh, f, n).1[Capacity(f)] == None
    ensures |Allocate(Fresh, f, n).1| == Capacity(f)
  {
  }

  /**
    `getCameraTrigger` as written: the trigger is handed out only when the
    camera counter is negative. The counter starts at 0 and nothing ever
    changes it, so the trigger is never handed out.
   */
  function GetCameraTriggerAsWritten(fa: Factory): (r: bool)
    ensures fa.camera >= 0 ==> !r
  {
    fa.camera < 0
  }

  /**
    One request the controller can make of the factory: a single channel,
    the allocation loop for `n` channels of a family, or the camera trigger.
   */
  datatype Request = Single(family: Family) | Loop(family: Family, n: nat) | Camera

  /** The factory after a series of requests, each handled as written. */
  function RunAsWritten(fa: Factory, reqs: seq<Request>): Factory
    decreases |reqs|
  {
    if reqs == [] then fa
    else
      var next := match reqs[0]
        case Single(f) => Get(fa, f).factory
        case Loop(f, n) => AllocateAsWritten(fa, f, n).0
        case Camera => fa;
      RunAsWritten(next, reqs[1..])
  }

  /** No request, however many, moves the camera counter of any factory. */
  lemma {:induction false} RequestsKeepCameraCounter(fa: Factory, reqs: seq<Request>)
    ensures RunAsWritten(fa, reqs).camera == fa.camera
    decreases |reqs|
  {
    if reqs != [] {
      var next := match reqs[0]
        case Single(f) => Get(fa, f).factory
        case Loop(f, n) => AllocateAsWritten(fa, f, n).0
        case Camera => fa;
      assert next.camera == fa.camera;
      RequestsKeepCameraCounter(next, reqs[1..]);
    }
  }

  /**
    The camera counter starts at 0 and no request moves it, so whatever the
    controller asks for first, the trigger is never handed out.
   */
  lemma CameraNeverGranted(reqs: seq<Request>)
    ensures !GetCameraTriggerAsWritten(RunAsWritten(Fresh, reqs))
  {
    RequestsKeepCameraCounter(Fresh, reqs);
  }

  /** `getCameraTrigger` as intended: the one trigger is handed out once, and counted. */
  function GetCameraTrigger(fa: Factory): (r: (Factory, bool))
    ensures r.1 <==> fa.camera < 1
    ensures r.1 ==> r.0 == fa.(camera := fa.camera + 1)
    ensures !r.1 ==> r.0 == fa
  {
    if fa.camera < 1 then (fa.(camera := fa.camera + 1), true) else (fa, false)
  }

  /** The intended camera request grants the trigger on a fresh factory and never a second time. */
  lemma CameraGrantedOnce(fa: Factory)
    requires fa.camera == 0
    ensures GetCameraTrigger(fa).1
    ensures !GetCameraTrigger(GetCameraTrigger(fa).0).1
  {
  }
}

=== FILE: laser_parameters.dfy ===
/**
  The value object holding one laser trigger's settings: mode, pulse
  duration (in microseconds, as register ticks) and the 16-bit on/off
  sequence. Its setters ignore out-of-range input, so duration and
  sequence never leave [0, 65535].
 */
module LaserParameters {
  import opened Optional
  import opened LaserTriggerMode
  import opened SequenceCodec

  /** Largest pulse duration (LaserTrigger.Duration.MAX). */
  const DurationMax: int := 65535

  datatype Params = Params(mode: Mode, duration: int, sequence: int)

  /** The invariant every reachable value keeps. */
  predicate Valid(p: Params)
  {
    0 <= p.duration <= DurationMax && 0 <= p.sequence <= SequenceMax
  }

  /** The fields before a constructor's setters run: Java's default 0 for the integers. */
  const Unset: Params := Params(Off, 0, 0)

  function SetMode(p: Params, m: Mode): (r: Params)
    ensures r.mode == m && r.duration == p.duration && r.sequence == p.sequence
  {
    p.(mode := m)
  }

  function SetDuration(p: Params, d: int): (r: Params)
    ensures r.mode == p.mode && r.sequence == p.sequence
    ensures 0 <= d <= DurationMax ==> r.duration == d
    ensures !(0 <= d <= DurationMax) ==> r == p
  {
    if 0 <= d <= DurationMax then p.(duration := d) else p
  }

  /** `setSequence(String)`: takes the string only when it is a valid 16-character sequence. */
  function SetSequenceBits(p: Params, s: string): (r: Params)
    ensures r.mode == p.mode && r.duration == p.duration
    ensures FormatSequence(s) != -1 ==> StringSequence(r.sequence) == s
    ensures FormatSequence(s) == -1 ==> r == p
  {
    var q := FormatSequence(s);
    if q != -1 then StringOfFormat(s); p.(sequence := q) else p
  }

  /** `setSequence(int)`: takes the value only when it is in [0, 65535]. */
  function SetSequence(p: Params, q: int): (r: Params)
    ensures r.mode == p.mode && r.duration == p.duration
    ensures 0 <= q <= SequenceMax ==> r.sequence == q
    ensures !(0 <= q <= SequenceMax) ==> r == p
  {
    if 0 <= q <= SequenceMax then p.(sequence := q) else p
  }

  /** The constructor taking the sequence as a string; `setValues` does the same to an existing value. */
  function FromBits(m: Mode, d: int, s: string): (r: Params)
    ensures Valid(r) && r.mode == m
    ensures r.duration == if 0 <= d <= DurationMax then d else 0
    ensures r.sequence == if FormatSequence(s) != -1 then FormatSequence(s) else 0
  {
    SetSequenceBits(SetDuration(SetMode(Unset, m), d), s)
  }

  /** The constructor taking the sequence as an integer. */
  function FromInt(m: Mode, d: int, q: int): (r: Params)
    ensures Valid(r) && r.mode == m
    ensures r.duration == if 0 <= d <= DurationMax then d else 0
    ensures r.sequence == if 0 <= q <= SequenceMax then q else 0
  {
    SetSequence(SetDuration(SetMode(Unset, m), d), q)
  }

  /** `setValues`: the three setters in turn. */
  function SetValues(p: Params, m: Mode, d: int, s: string): (r: Params)
    ensures Valid(p) ==> Valid(r)
    ensures r.mode == m
    ensures r.duration == if 0 <= d <= DurationMax then d else p.duration
    ensures r.sequence == if FormatSequence(s) != -1 then FormatSequence(s) else p.sequence
  {
    SetSequenceBits(SetDuration(SetMode(p, m), d), s)
  }

  /** Every setter keeps the invariant. */
  lemma SettersKeepValid(p: Params, m: Mode, d: int, s: string, q: int)
    requires Valid(p)
    ensures Valid(SetMode(p, m)) && Valid(SetDuration(p, d))
    ensures Valid(SetSequenceBits(p, s)) && Valid(SetSequence(p, q))
  {
  }

  /** `getFormattedSequence`: the stored sequence as its 16-character binary string. */
  function FormattedSequence(p: Params): (r: string)
    ensures Valid(p) ==> |r| == SequenceWidth && IsBits(r) && FormatSequence(r) == p.sequence
  {
    if Valid(p) then FormatOfString(p.sequence); StringSequence(p.sequence) else StringSequence(p.sequence)
  }

  function DigitChar(d: nat): char
    requires d < 10
  {
    (('0' as int) + d) as char
  }

  predicate IsDigit(c: char)
  {
    '0' <= c <= '9'
  }

  /** Java's decimal rendering of a non-negative int. */
  function NatToDecimal(n: nat): (r: string)
    ensures |r| >= 1 && forall k :: 0 <= k < |r| ==> IsDigit(r[k])
  {
    if n < 10 then [DigitChar(n)] else NatToDecimal(n / 10) + [DigitChar(n % 10)]
  }

  /** Java's decimal rendering of an int. */
  function IntToDecimal(i: int): string
  {
    if i < 0 then "-" + NatToDecimal(-i) else NatToDecimal(i)
  }

  /** The value of a string of decimal digits. */
  function DecimalValue(s: string): nat
    requires forall k :: 0 <= k < |s| ==> IsDigit(s[k])
  {
    if s == [] then 0
    else
      assert IsDigit(s[|s| - 1]);
      10 * DecimalValue(s[..|s| - 1]) + (s[|s| - 1] as int - '0' as int)
  }

  lemma {:induction false} DecimalRoundTrip(n: nat)
    ensures DecimalValue(NatToDecimal(n)) == n
  {
    if n >= 10 {
      var r := NatToDecimal(n);
      assert r[..|r| - 1] == NatToDecimal(n / 10);
      DecimalRoundTrip(n / 10);
    }
  }

  const ModeKey: string := "[Mode: "
  const DurationKey: string := ", Duration: "
  const SequenceKey: string := " us, Sequence: "

  /** `toString`: "[Mode: <mode>, Duration: <d> us, Sequence: <bits>]". */
  function ToString(p: Params): string
  {
    ModeKey + Name(p.mode) + DurationKey + IntToDecimal(p.duration) + SequenceKey + FormattedSequence(p) + "]"
  }

  /** Position of the first `c` in `s`, or |s| when there is none. */
  function IndexOf(s: string, c: char): (r: nat)
    ensures r <= |s|
    ensures forall k :: 0 <= k < r ==> s[k] != c
    ensures r < |s| ==> s[r] == c
  {
    if s == [] then 0 else if s[0] == c then 0 else 1 + IndexOf(s[1..], c)
  }

  function ModeOfName(s: string): Option<Mode>
  {
    if s == "OFF" then Some(Off)
    else if s == "ON" then Some(On)
    else if s == "RISING" then Some(Rising)
    else if s == "FALLING" then Some(Falling)
    else if s == "FOLLOWING" then Some(Following)
    else None
  }

  predicate AllDigits(s: string)
  {
    forall k :: 0 <= k < |s| ==> IsDigit(s[k])
  }

  /** Splits "[Mode: <body> us, Sequence: <bits>]" into its body and bits. */
  function Frame(s: string): Option<(string, string)>
  {
    var n := |SequenceKey| + SequenceWidth + 1;
    if |s| < |ModeKey| + n || s[..|ModeKey|] != ModeKey then None
    else
      var tail := s[|s| - n..];
      if tail[..|SequenceKey|] != SequenceKey || tail[n - 1] != ']' then None
      else Some((s[|ModeKey|..|s| - n], tail[|SequenceKey|..n - 1]))
  }

  /** Reads "<mode>, Duration: <digits>": the mode name runs up to the first ','. */
  function ParseBody(body: string): Option<(Mode, int)>
  {
    var k := IndexOf(body, ',');
    var mode := ModeOfName(body[..k]);
    var rest := body[k..];
    if mode.None? || |rest| <= |DurationKey| || rest[..|DurationKey|] != DurationKey then None
    else
      var number := rest[|DurationKey|..];
      if AllDigits(number) then Some((mode.value, DecimalValue(number) as int)) else None
  }

  /** Reads a laser parameter string back: the partner of `ToString`. */
  function Parse(s: string): Option<Params>
  {
    match Frame(s)
    case None => None
    case Some((body, bits)) =>
      match ParseBody(body)
      case None => None
      case Some((mode, duration)) =>
        var q := FormatSequence(bits);
        if q == -1 then None else Some(Params(mode, duration, q))
  }

  lemma NameHasNoComma(m: Mode)
    ensures forall k :: 0 <= k < |Name(m)| ==> Name(m)[k] != ','
    ensures ModeOfName(Name(m)) == Some(m)
  {
  }

  lemma FrameOf(body: string, bits: string)
    requires |bits| == SequenceWidth
    ensures Frame(ModeKey + body + SequenceKey + bits + "]") == Some((body, bits))
  {
    var tail := SequenceKey + bits + "]";
    var s := ModeKey + body + SequenceKey + bits + "]";
    assert s == ModeKey + body + tail;
    assert s[..|ModeKey|] == ModeKey;
    assert s[|s| - |tail|..] == tail;
    assert s[|ModeKey|..|s| - |tail|] == body;
    assert tail[..|SequenceKey|] == SequenceKey;
    assert tail[|SequenceKey|..|tail| - 1] == bits;
  }

  lemma BodyOf(m: Mode, n: nat)
    ensures ParseBody(Name(m) + DurationKey + NatToDecimal(n)) == Some((m, n))
  {
    var name, digits := Name(m), NatToDecimal(n);
    var rest := DurationKey + digits;
    var body := name + DurationKey + digits;
    assert body == name + rest;
    NameHasNoComma(m);
    assert body[|name|] == rest[0] == ',';
    assert forall k :: 0 <= k < |name| ==> body[k] == name[k];
    assert IndexOf(body, ',') == |name|;
    assert body[..|name|] == name;
    assert body[|name|..] == rest;
    assert rest[..|DurationKey|] == DurationKey;
    assert rest[|DurationKey|..] == digits;
    DecimalRoundTrip(n);
  }

  /** Parsing the string form of a valid value gives the value back. */
  lemma ParseToString(p: Params)
    requires Valid(p)
    ensures Parse(ToString(p)) == Some(p)
  {
    var body := Name(p.mode) + DurationKey + NatToDecimal(p.duration);
    assert ToString(p) == ModeKey + body + SequenceKey + FormattedSequence(p) + "]";
    FrameOf(body, FormattedSequence(p));
    BodyOf(p.mode, p.duration);
  }

  /** Hence two valid values with the same string form are equal. */
  lemma ToStringInjective(p: Params, q: Params)
    requires Valid(p) && Valid(q) && ToString(p) == ToString(q)
    ensures p == q
  {
    ParseToString(p);
    ParseToString(q);
  }
}

=== FILE: laser_trigger.dfy ===
/**
  One laser-trigger module: three registers (mode, duration, sequence)
  that share the module's index, each a channel with its own maximum.
 */
module LaserTrigger {
  import opened Transport
  import opened Registers
  import opened Signal
  import opened LaserTriggerMode
  import opened SequenceCodec
  import opened LaserParameters

  datatype LaserTrigger = LaserTrigger(id: int)

  function ModeChannel(t: LaserTrigger): Channel { Channel(LaserMode, t.id, false) }
  function DurationChannel(t: LaserTrigger): Channel { Channel(LaserDuration, t.id, false) }
  function SequenceChannel(t: LaserTrigger): Channel { Channel(LaserSequence, t.id, false) }

  /** `setMode`: a mode register write, refused outside [0, 4]. */
  function SetMode(t: LaserTrigger, v: int, bus: Bus): (r: Step)
    ensures !(0 <= v <= 4) ==> r == Step(false, bus)
    ensures 0 <= v <= 4 ==> r.ok == NextSucceeds(bus) && r.bus.log == bus.log + [Write(LaserModeBase + t.id, v)]
    ensures r.ok ==> GetMode(t, r.bus) == v
  {
    SetState(ModeChannel(t), v, bus)
  }

  function GetMode(t: LaserTrigger, bus: Bus): int
  {
    GetState(ModeChannel(t), bus)
  }

  /** `setDuration`: a duration register write, refused outside [0, 65535]. */
  function SetDuration(t: LaserTrigger, v: int, bus: Bus): (r: Step)
    ensures !(0 <= v <= DurationMax) ==> r == Step(false, bus)
    ensures 0 <= v <= DurationMax ==>
              r.ok == NextSucceeds(bus) && r.bus.log == bus.log + [Write(LaserDurationBase + t.id, v)]
    ensures r.ok ==> GetDuration(t, r.bus) == v
  {
    SetState(DurationChannel(t), v, bus)
  }

  function GetDuration(t: LaserTrigger, bus: Bus): int
  {
    GetState(DurationChannel(t), bus)
  }

  /** `setSequence`: a sequence register write, refused outside [0, 65535]. */
  function SetSequence(t: LaserTrigger, v: int, bus: Bus): (r: Step)
    ensures !(0 <= v <= SequenceMax) ==> r == Step(false, bus)
    ensures 0 <= v <= SequenceMax ==>
              r.ok == NextSucceeds(bus) && r.bus.log == bus.log + [Write(LaserSequenceBase + t.id, v)]
    ensures r.ok ==> GetSequence(t, r.bus) == v
  {
    SetState(SequenceChannel(t), v, bus)
  }

  function GetSequence(t: LaserTrigger, bus: Bus): int
  {
    GetState(SequenceChannel(t), bus)
  }

  /** Each setter writes only its own register: the module's other two readings are unchanged. */
  lemma SettersKeepOtherRegisters(t: LaserTrigger, v: int, bus: Bus)
    ensures GetDuration(t, SetMode(t, v, bus).bus) == GetDuration(t, bus)
    ensures GetSequence(t, SetMode(t, v, bus).bus) == GetSequence(t, bus)
    ensures GetMode(t, SetDuration(t, v, bus).bus) == GetMode(t, bus)
    ensures GetSequence(t, SetDuration(t, v, bus).bus) == GetSequence(t, bus)
    ensures GetMode(t, SetSequence(t, v, bus).bus) == GetMode(t, bus)
    ensures GetDuration(t, SetSequence(t, v, bus).bus) == GetDuration(t, bus)
  {
  }

  /** `Mode.setTriggerMode`: writes the mode's value directly, without the range check. */
  function SetTriggerMode(t: LaserTrigger, m: Mode, bus: Bus): (r: Step)
    ensures r.ok == NextSucceeds(bus)
    ensures r.bus.log == bus.log + [Write(LaserModeBase + t.id, Value(m))]
    ensures r.ok ==> FromValue(GetMode(t, r.bus)) == m
  {
    FromValueOfValue(m);
    WriteRegister(bus, Address(ModeChannel(t)), Value(m))
  }

  /** The three writes of a parameter set, in the order they are made. */
  function ParameterWrites(t: LaserTrigger, p: Params): seq<Command>
  {
    [Command(ModeChannel(t), Value(p.mode)), Command(DurationChannel(t), p.duration),
     Command(SequenceChannel(t), p.sequence)]
  }

  /**
    Writes mode, duration and sequence in that order and stops at the first
    write that fails, leaving the earlier ones applied.
   */
  function SetParameters(t: LaserTrigger, p: Params, bus: Bus): (r: Step)
    ensures r.ok ==> Valid(p)
    ensures r.ok ==> r.bus.log == bus.log + [Write(LaserModeBase + t.id, Value(p.mode)),
                                             Write(LaserDurationBase + t.id, p.duration),
                                             Write(LaserSequenceBase + t.id, p.sequence)]
    ensures bus.log <= r.bus.log && |r.bus.log| <= |bus.log| + 3
  {
    var r := WriteInOrder(ParameterWrites(t, p), bus);
    assert r.ok ==> (IsValueAllowed(ParameterWrites(t, p)[1].channel, p.duration)
                     && IsValueAllowed(ParameterWrites(t, p)[2].channel, p.sequence));
    r
  }

  /** Conversely, valid parameters on a device that accepts the three writes are written in full. */
  lemma ValidParametersAreWritten(t: LaserTrigger, p: Params, bus: Bus)
    requires Valid(p) && AcceptsNext(bus, 3)
    ensures SetParameters(t, p, bus).ok
  {
    var cmds := ParameterWrites(t, p);
    var n := |bus.log|;
    assert n !in bus.refused && n + 1 !in bus.refused && n + 2 !in bus.refused;
    var s0 := SetState(cmds[0].channel, cmds[0].value, bus);
    assert s0.ok && |s0.bus.log| == n + 1;
    var s1 := SetState(cmds[1].channel, cmds[1].value, s0.bus);
    assert s1.ok && |s1.bus.log| == n + 2;
    var s2 := SetState(cmds[2].channel, cmds[2].value, s1.bus);
    assert s2.ok;
    assert cmds[1..][0] == cmds[1] && cmds[1..][1..][0] == cmds[2];
    assert cmds[1..][1..][1..] == [];
    assert WriteInOrder(cmds[1..][1..], s1.bus) == WriteInOrder([], s2.bus);
    assert WriteInOrder(cmds[1..], s0.bus) == WriteInOrder(cmds[1..][1..], s1.bus);
    assert WriteInOrder(cmds, bus) == WriteInOrder(cmds[1..], s0.bus);
  }

  /**
    Reads the three registers back into a value object, through its guarded
    setters: an unknown mode decodes to Off, and an out-of-range duration or
    sequence is left at 0.
   */
  function GetParameters(t: LaserTrigger, bus: Bus): (r: Params)
    ensures Valid(r)
    ensures r.mode == FromValue(GetMode(t, bus))
  {
    FromInt(FromValue(GetMode(t, bus)), GetDuration(t, bus), GetSequence(t, bus))
  }

  /** A fully accepted parameter set reads back unchanged. */
  lemma ParametersRoundTrip(t: LaserTrigger, p: Params, bus: Bus)
    requires SetParameters(t, p, bus).ok
    ensures GetParameters(t, SetParameters(t, p, bus).bus) == p
  {
    var cmds := ParameterWrites(t, p);
    WriteInOrderReadsBack(cmds, bus);
    assert GetState(cmds[0].channel, SetParameters(t, p, bus).bus) == Value(p.mode);
    assert GetState(cmds[1].channel, SetParameters(t, p, bus).bus) == p.duration;
    assert GetState(cmds[2].channel, SetParameters(t, p, bus).bus) == p.sequence;
    FromValueOfValue(p.mode);
  }

  /** A duration out of range stops the set after the mode write: the sequence is never written. */
  lemma OutOfRangeDurationWritesOnlyMode(t: LaserTrigger, p: Params, bus: Bus)
    requires !(0 <= p.duration <= DurationMax)
    ensures !SetParameters(t, p, bus).ok
    ensures SetParameters(t, p, bus).bus.log == bus.log + [Write(LaserModeBase + t.id, Value(p.mode))]
  {
    var cmds := ParameterWrites(t, p);
    var first := SetState(cmds[0].channel, cmds[0].value, bus);
    assert cmds[1..][0] == cmds[1];
    if first.ok {
      assert WriteInOrder(cmds[1..], first.bus) == Step(false, first.bus);
    }
  }

  /**
    The values of Example02_MultipleLasers.java:41-45: RISING, 2000 us, "1010101010101010"
    set on a laser and read back gives the same values.
   */
  lemma RisingExample(t: LaserTrigger, bus: Bus)
    requires SetParameters(t, FromBits(Rising, 2000, "1010101010101010"), bus).ok
    ensures FromBits(Rising, 2000, "1010101010101010") == Params(Rising, 2000, 43690)
    ensures GetParameters(t, SetParameters(t, Params(Rising, 2000, 43690), bus).bus) == Params(Rising, 2000, 43690)
  {
    AlternatingRoundTrip();
    ParametersRoundTrip(t, Params(Rising, 2000, 43690), bus);
  }

  /** Its string form names the mode, the duration and the sequence. */
  lemma RisingExampleString()
    ensures ToString(Params(Rising, 2000, 43690)) ==
            "[Mode: " + "RISING" + ", Duration: " + "2000" + " us, Sequence: " + "1010101010101010" + "]"
  {
    AlternatingRoundTrip();
    assert FormattedSequence(Params(Rising, 2000, 43690)) == "1010101010101010";
    assert NatToDecimal(2) == "2";
    assert NatToDecimal(20) == "20";
    assert NatToDecimal(200) == "200";
    assert NatToDecimal(2000) == "2000";
    assert Name(Rising) == "RISING";
  }
}

=== FILE: laser_trigger_mode.dfy ===
/** The operating modes of a laser trigger and their register encoding. */
module LaserTriggerMode {

  datatype Mode = Off | On | Rising | Falling | Following

  /** `getValue`: the register value of a mode. */
  function Value(m: Mode): (v: int)
    ensures 0 <= v <= 4
    ensures v == 0 <==> m == Off
  {
    match m
    case Off => 0
    case On => 1
    case Rising => 2
    case Falling => 3
    case Following => 4
  }

  /** `getMode`: decodes a register value; anything unknown falls back to Off. */
  function FromValue(i: int): (m: Mode)
    ensures 1 <= i <= 4 ==> Value(m) == i
    ensures !(1 <= i <= 4) ==> m == Off
  {
    match i
    case 1 => On
    case 2 => Rising
    case 3 => Falling
    case 4 => Following
    case _ => Off
  }

  /** The enum constant's name, which is what Java's `toString` prints. */
  function Name(m: Mode): string
  {
    match m
    case Off => "OFF"
    case On => "ON"
    case Rising => "RISING"
    case Falling => "FALLING"
    case Following => "FOLLOWING"
  }

  /** Decoding undoes encoding for every mode. */
  lemma FromValueOfValue(m: Mode)
    ensures FromValue(Value(m)) == m
  {
  }

  /** Encoding undoes decoding exactly on the five register values of the modes. */
  lemma ValueOfFromValue(i: int)
    ensures Value(FromValue(i)) == i <==> 0 <= i <= 4
  {
  }

  /** Distinct modes have distinct register values. */
  lemma ValueInjective(m: Mode, n: Mode)
    ensures Value(m) == Value(n) ==> m == n
  {
    FromValueOfValue(m);
    FromValueOfValue(n);
  }
}

=== FILE: optional.dfy ===
/** The driver signals "no object" with Java's null; the model uses an explicit option. */
module Optional {

  datatype Option<+T> = None | Some(value: T)
}

=== FILE: registers.dfy ===
/**
  The register address map of the board, firmware version 2.

  The numeric values of the capacities and addresses are not in the
  driver's source files (they live in constants the driver only refers to
  by name). They are given here as one additive derivation: each block
  starts where the previous one ends, so changing a capacity shifts every
  later block and no two blocks can overlap. The version number and the
  three device identifiers are the ones the controller's error messages
  name.
 */
module Registers {

  /** Number of laser-trigger modules (NM_LASER). */
  const LaserCapacity: nat := 8
  /** Number of TTL outputs (NM_TTL). */
  const TtlCapacity: nat := 4
  /** Number of servo outputs (NM_SERVO). */
  const ServoCapacity: nat := 7
  /** Number of PWM outputs (NM_PWM). */
  const PwmCapacity: nat := 5
  /** Number of analog inputs (NM_AI). */
  const AnalogCapacity: nat := 8

  /** First laser mode register (ADDR_MODE). */
  const LaserModeBase: int := 0
  /** First laser duration register (ADDR_DURA). */
  const LaserDurationBase: int := LaserModeBase + LaserCapacity
  /** First laser sequence register (ADDR_SEQ). */
  const LaserSequenceBase: int := LaserDurationBase + LaserCapacity
  /** First TTL register (ADDR_TTL). */
  const TtlBase: int := LaserSequenceBase + LaserCapacity
  /** First servo register (ADDR_SERVO). */
  const ServoBase: int := TtlBase + TtlCapacity
  /** First PWM register (ADDR_PWM). */
  const PwmBase: int := ServoBase + ServoCapacity
  /** Camera trigger mode, active or passive (ADDR_ACTIVE_TRIGGER). */
  const CameraModeAddr: int := PwmBase + PwmCapacity
  /** Camera trigger start/stop (ADDR_START_TRIGGER). */
  const CameraStartAddr: int := CameraModeAddr + 1
  /** Camera pulse length (ADDR_CAM_PULSE). */
  const CameraPulseAddr: int := CameraStartAddr + 1
  /** Camera period (ADDR_CAM_PERIOD). */
  const CameraPeriodAddr: int := CameraPulseAddr + 1
  /** Camera exposure (ADDR_CAM_EXPO). */
  const CameraExposureAddr: int := CameraPeriodAddr + 1
  /** Delay between camera and laser trigger (ADDR_LASER_DELAY). */
  const CameraDelayAddr: int := CameraExposureAddr + 1
  /** First analog input register (ADDR_ANALOG_INPUT). */
  const AnalogBase: int := CameraDelayAddr + 1
  /** Firmware version register (ADDR_VERSION). */
  const VersionAddr: int := 100
  /** Device identity register (ADDR_ID). */
  const IdAddr: int := 101

  /** The only firmware version the driver accepts (CURRENT_VERSION). */
  const CurrentVersion: int := 2
  /** Identity of the Cu board (ID_CU). */
  const IdCu: int := 49
  /** Identity of the Au board (ID_AU). */
  const IdAu: int := 79
  /** Identity of the Au+ board (ID_AUP). */
  const IdAuPlus: int := 80
}

=== FILE: sequence_codec.dfy ===
/**
  The 16-bit on/off sequence of a laser trigger, as a string of sixteen
  '0'/'1' characters read most significant bit first, and its integer value.
  Failure is signalled in-band, as the source does: -1 for a string that is
  not a sequence, "" for an integer outside [0, 65535].
 */
module SequenceCodec {
  import opened Sequences

  /** Largest sequence value (LaserTrigger.Sequence.MAX). */
  const SequenceMax: int := 65535
  /** Number of characters of a formatted sequence. */
  const SequenceWidth: nat := 16

  function Pow2(n: nat): (r: nat)
    ensures r >= 1
  {
    if n == 0 then 1 else 2 * Pow2(n - 1)
  }

  lemma Pow2Sixteen()
    ensures Pow2(SequenceWidth) == SequenceMax + 1
  {
    assert Pow2(4) == 16;
    assert Pow2(8) == 256;
    assert Pow2(12) == 4096;
  }

  /** `isBits`: every character is '0' or '1' (so the empty string qualifies). */
  function IsBits(s: string): (b: bool)
    ensures b <==> forall i :: 0 <= i < |s| ==> s[i] == '0' || s[i] == '1'
  {
    |s| == 0 || ((s[0] == '0' || s[0] == '1') && IsBits(s[1..]))
  }

  function Bit(c: char): nat
  {
    if c == '1' then 1 else 0
  }

  function BitChar(b: bool): char
  {
    if b then '1' else '0'
  }

  /** The value of a binary string read most significant character first. */
  function BitsValue(s: string): (r: nat)
    ensures r < Pow2(|s|)
  {
    if s == [] then 0 else 2 * BitsValue(s[..|s| - 1]) + Bit(s[|s| - 1])
  }

  /** The `w` low bits of `n`, most significant first. */
  function ToBits(n: nat, w: nat): (r: string)
    ensures |r| == w
  {
    if w == 0 then [] else ToBits(n / 2, w - 1) + [BitChar(n % 2 == 1)]
  }

  lemma {:induction false} ToBitsIsBits(n: nat, w: nat)
    ensures IsBits(ToBits(n, w))
  {
    if w > 0 {
      ToBitsIsBits(n / 2, w - 1);
    }
  }

  /** `formatSequence`: the value of a 16-character binary string, otherwise -1. */
  function FormatSequence(s: string): (r: int)
    ensures r == -1 <==> !(IsBits(s) && |s| == SequenceWidth)
    ensures r != -1 ==> 0 <= r <= SequenceMax
  {
    Pow2Sixteen();
    if !IsBits(s) || |s| != SequenceWidth then -1 else BitsValue(s)
  }

  /**
    The integer-to-string conversion the tests call `stringSequence`: the
    16-character binary form of `i`, or "" outside [0, 65535].
   */
  function StringSequence(i: int): (r: string)
    ensures r == "" <==> i < 0 || i > SequenceMax
    ensures 0 <= i <= SequenceMax ==> |r| == SequenceWidth && IsBits(r)
  {
    if i < 0 || i > SequenceMax then "" else ToBitsIsBits(i, SequenceWidth); ToBits(i, SequenceWidth)
  }

  lemma {:induction false} MulGrows(d: nat, k: nat)
    requires k >= 1
    ensures d * k >= d
  {
    if k > 1 {
      MulGrows(d, k - 1);
      assert d * k == d * (k - 1) + d;
    }
  }

  lemma MulBounds(d: int, k: int)
    requires d >= 0
    ensures k >= 1 ==> d * k >= d
    ensures k <= -1 ==> d * k <= -d
  {
    if k >= 1 {
      MulGrows(d, k);
    } else if k <= -1 {
      MulGrows(d, -k);
    }
  }

  lemma ModUnique(n: int, d: int, q: int, r: int)
    requires d > 0 && n == d * q + r && 0 <= r < d
    ensures n % d == r && n / d == q
  {
    var q0, r0 := n / d, n % d;
    assert n == d * q0 + r0;
    assert d * q == d * q0 + d * (q - q0);
    MulBounds(d, q - q0);
  }

  lemma ModDouble(n: nat, p: nat)
    requires p >= 1
    ensures n % (2 * p) == 2 * ((n / 2) % p) + n % 2
  {
    var q := n / 2;
    assert q == p * (q / p) + q % p;
    ModUnique(n, 2 * p, q / p, 2 * (q % p) + n % 2);
  }

  /** Reading back the `w` low bits of `n` gives `n` modulo 2^w. */
  lemma {:induction false} ValueOfBits(n: nat, w: nat)
    ensures BitsValue(ToBits(n, w)) == n % Pow2(w)
  {
    if w > 0 {
      var t := ToBits(n, w);
      assert t[..|t| - 1] == ToBits(n / 2, w - 1);
      ValueOfBits(n / 2, w - 1);
      ModDouble(n, Pow2(w - 1));
    }
  }

  /** Formatting the value of a binary string at its own width gives the string back. */
  lemma {:induction false} BitsOfValue(s: string)
    requires IsBits(s)
    ensures ToBits(BitsValue(s), |s|) == s
    decreases |s|
  {
    if s != [] {
      var init := s[..|s| - 1];
      BitsOfValue(init);
      assert s == init + [s[|s| - 1]];
    }
  }

  /** Round trip: every sequence value survives formatting and parsing (LaserTriggerTest.testInverse). */
  lemma FormatOfString(i: int)
    requires 0 <= i <= SequenceMax
    ensures FormatSequence(StringSequence(i)) == i
  {
    var s := StringSequence(i);
    Pow2Sixteen();
    assert s == ToBits(i, SequenceWidth);
    ValueOfBits(i, SequenceWidth);
    assert BitsValue(s) == i % 65536 == i;
    assert IsBits(s) && |s| == SequenceWidth;
  }

  /** Round trip: every valid sequence string survives parsing and formatting. */
  lemma StringOfFormat(s: string)
    requires FormatSequence(s) != -1
    ensures StringSequence(FormatSequence(s)) == s
  {
    BitsOfValue(s);
  }

  /** The sample of LaserTriggerTest, evaluated one bit at a time. */
  lemma AlternatingSample()
    ensures ToBits(43690, SequenceWidth) == "1010101010101010"
  {
    assert ToBits(1, 1) == "1";
    assert ToBits(2, 2) == "10";
    assert ToBits(5, 3) == "101";
    assert ToBits(10, 4) == "1010";
    assert ToBits(21, 5) == "10101";
    assert ToBits(42, 6) == "101010";
    assert ToBits(85, 7) == "1010101";
    assert ToBits(170, 8) == "10101010";
    assert ToBits(341, 9) == "101010101";
    assert ToBits(682, 10) == "1010101010";
    assert ToBits(1365, 11) == "10101010101";
    assert ToBits(2730, 12) == "101010101010";
    assert ToBits(5461, 13) == "1010101010101";
    assert ToBits(10922, 14) == "10101010101010";
    assert ToBits(21845, 15) == "101010101010101";
  }

  lemma AlternatingRoundTrip()
    ensures FormatSequence("1010101010101010") == 43690
    ensures StringSequence(43690) == "1010101010101010"
  {
    AlternatingSample();
    FormatOfString(43690);
  }

  /** Expectations of LaserTriggerTest: strings that are not sequences, and values out of range. */
  lemma FailureVectors()
    ensures FormatSequence("111111111111111") == -1
    ensures FormatSequence("00000000000000000") == -1
    ensures FormatSequence("10201110") == -1
    ensures StringSequence(-1) == "" && StringSequence(65536) == ""
  {
    assert "10201110"[2] == '2';
  }

  /**
    The same conversion written as the source's loop, with the comparison
    the tests evidently expect: bit `j` is set when what is left of the
    value reaches 2^j, and is then subtracted.
   */
  method StringSequenceByThreshold(i: int) returns (s: string)
    ensures s == StringSequence(i)
  {
    if i < 0 || i > SequenceMax {
      return "";
    }
    Pow2Sixteen();
    var value := i;
    s := "";
    var j := 15;
    while j >= 0
      invariant -1 <= j <= 15
      invariant 0 <= value < Pow2(j + 1)
      invariant s + ToBits(value, j + 1) == ToBits(i, SequenceWidth)
    {
      assert Pow2(j + 1) == 2 * Pow2(j);
      ToBitsHead(value, j);
      var bit := value >= Pow2(j);
      var rest := if bit then value - Pow2(j) else value;
      assert 0 <= rest < Pow2(j);
      assert ToBits(value, j + 1) == [BitChar(bit)] + ToBits(rest, j);
      AppendAssociative(s, [BitChar(bit)], ToBits(rest, j));
      s := s + [BitChar(bit)];
      value := rest;
      j := j - 1;
    }
    assert ToBits(value, 0) == [];
    assert s == ToBits(i, SequenceWidth);
  }

  /** Splitting off the most significant bit of a (w+1)-bit value. */
  lemma {:induction false} ToBitsHead(v: nat, w: nat)
    requires v < Pow2(w + 1)
    ensures ToBits(v, w + 1) ==
            [BitChar(v >= Pow2(w))] + ToBits(if v >= Pow2(w) then v - Pow2(w) else v, w)
  {
    if w > 0 {
      ToBitsHead(v / 2, w - 1);
    }
  }

  /** The loop at LaserTrigger.java:135-142 as written, comparing with `<` instead of `>=`. */
  function InvertedLoop(value: int, j: int): (r: string)
    requires j >= -1
    ensures |r| == j + 1 && IsBits(r)
    decreases j + 1
  {
    if j < 0 then ""
    else if value < Pow2(j) then "1" + InvertedLoop(value - Pow2(j), j - 1)
    else "0" + InvertedLoop(value, j - 1)
  }

  /** `getSequence(int)` as written. */
  function StringSequenceAsWritten(i: int): (r: string)
    ensures r == "" <==> i < 0 || i > SequenceMax
  {
    if i < 0 || i > SequenceMax then "" else InvertedLoop(i, 15)
  }

  function Repeat(c: char, n: nat): (r: string)
    ensures |r| == n && forall k :: 0 <= k < n ==> r[k] == c
  {
    if n == 0 then [] else [c] + Repeat(c, n - 1)
  }

  lemma {:induction false} NegativeGivesOnes(value: int, j: int)
    requires j >= -1 && value < 0
    ensures InvertedLoop(value, j) == Repeat('1', j + 1)
    decreases j + 1
  {
    if j >= 0 {
      NegativeGivesOnes(value - Pow2(j), j - 1);
    }
  }

  lemma {:induction false} LargeGivesZeros(value: int, j: int)
    requires j >= -1 && (j >= 0 ==> value >= Pow2(j))
    ensures InvertedLoop(value, j) == Repeat('0', j + 1)
    decreases j + 1
  {
    if j >= 0 {
      LargeGivesZeros(value, j - 1);
    }
  }

  lemma {:induction false} ValueOfRepeat(c: char, n: nat)
    ensures BitsValue(Repeat(c, n)) == if c == '1' then Pow2(n) - 1 else 0
  {
    if n > 0 {
      var r := Repeat(c, n);
      assert r[..n - 1] == Repeat(c, n - 1);
      ValueOfRepeat(c, n - 1);
    }
  }

  /**
    As written, the conversion yields all ones below 32768 and all zeros
    from there on, so the round trip of the tests fails for every value.
   */
  lemma AsWrittenRoundTripFails(i: int)
    requires 0 <= i <= SequenceMax
    ensures StringSequenceAsWritten(i) == Repeat(if i < 32768 then '1' else '0', SequenceWidth)
    ensures FormatSequence(StringSequenceAsWritten(i)) != i
    ensures StringSequenceAsWritten(i) != StringSequence(i)
  {
    Pow2Sixteen();
    if i < 32768 {
      NegativeGivesOnes(i - 32768, 14);
      ValueOfRepeat('1', SequenceWidth);
    } else {
      LargeGivesZeros(i, 14);
      ValueOfRepeat('0', SequenceWidth);
    }
    if StringSequenceAsWritten(i) == StringSequence(i) {
      FormatOfString(i);
    }
  }
}

=== FILE: sequences.dfy ===
/** Facts about sequences shared by the codecs and the register writers. */
module Sequences {

  /** Concatenation regroups freely. */
  lemma AppendAssociative<T>(a: seq<T>, b: seq<T>, c: seq<T>)
    ensures (a + b) + c == a + (b + c)
  {
  }
}

=== FILE: signal.dfy ===
/**
  A channel ("signal"): one register slot of the board, identified by its
  kind and its index within that kind. The Java class hierarchy (TTL, PWM,
  Servo, AnalogInput and the per-register classes inside LaserTrigger and
  CameraTrigger) becomes one closed datatype of kinds; each kind fixes the
  base address and the largest value a write may carry.
 */
module Signal {
  import opened Registers
  import opened Transport
  import opened Sequences

  datatype Kind =
    | Ttl | Pwm | Servo | AnalogInput
    | LaserMode | LaserDuration | LaserSequence
    | CameraMode | CameraStart | CameraPulse | CameraPeriod | CameraExposure | CameraDelay

  /** A channel is its kind, its index (the Java `id`) and whether it refuses writes. */
  datatype Channel = Channel(kind: Kind, id: int, readOnly: bool)

  /** The two TTL levels. */
  const TtlOff: int := 0
  const TtlOn: int := 1

  /** First register of the kind's block. */
  function Base(k: Kind): int
  {
    match k
    case Ttl => TtlBase
    case Pwm => PwmBase
    case Servo => ServoBase
    case AnalogInput => AnalogBase
    case LaserMode => LaserModeBase
    case LaserDuration => LaserDurationBase
    case LaserSequence => LaserSequenceBase
    case CameraMode => CameraModeAddr
    case CameraStart => CameraStartAddr
    case CameraPulse => CameraPulseAddr
    case CameraPeriod => CameraPeriodAddr
    case CameraExposure => CameraExposureAddr
    case CameraDelay => CameraDelayAddr
  }

  /** Largest value a write may carry (`getMax`); an analog input reports -1. */
  function Max(k: Kind): int
  {
    match k
    case Ttl => TtlOn
    case Pwm => 255
    case Servo => 65535
    case AnalogInput => -1
    case LaserMode => 4
    case LaserDuration => 65535
    case LaserSequence => 65535
    case CameraMode => 1
    case CameraStart => 1
    case CameraPulse => 65535
    case CameraPeriod => 65535
    case CameraExposure => 65535
    case CameraDelay => 65535
  }

  /** How many channels of the kind the board has; the camera registers are single slots. */
  function Capacity(k: Kind): nat
  {
    match k
    case Ttl => TtlCapacity
    case Pwm => PwmCapacity
    case Servo => ServoCapacity
    case AnalogInput => AnalogCapacity
    case LaserMode => LaserCapacity
    case LaserDuration => LaserCapacity
    case LaserSequence => LaserCapacity
    case _ => 1
  }

  /** A channel the board actually has. */
  predicate OnBoard(c: Channel)
  {
    0 <= c.id < Capacity(c.kind)
  }

  /** The register a channel reads and writes. */
  function Address(c: Channel): int
  {
    Base(c.kind) + c.id
  }

  function TtlChannel(i: int): Channel { Channel(Ttl, i, false) }
  function PwmChannel(i: int): Channel { Channel(Pwm, i, false) }
  function ServoChannel(i: int): Channel { Channel(Servo, i, false) }
  function AnalogChannel(i: int): Channel { Channel(AnalogInput, i, true) }

  /** `isValueAllowed`: the range check, which an analog input overrides to refuse everything. */
  predicate IsValueAllowed(c: Channel, v: int)
    ensures IsValueAllowed(c, v) ==> 0 <= v <= 65535 && c.kind != AnalogInput
  {
    match c.kind
    case AnalogInput => false
    case _ => 0 <= v <= Max(c.kind)
  }

  /** `setState`: a write the channel refuses never reaches the transport. */
  function SetState(c: Channel, v: int, bus: Bus): (r: Step)
    ensures c.readOnly || !IsValueAllowed(c, v) ==> r == Step(false, bus)
    ensures !c.readOnly && IsValueAllowed(c, v) ==>
              r.ok == NextSucceeds(bus) && r.bus.log == bus.log + [Write(Address(c), v)]
    ensures r.ok ==> GetState(c, r.bus) == v
    ensures forall a :: a != Address(c) ==> Read(r.bus, a) == Read(bus, a)
    ensures r.bus.refused == bus.refused
  {
    if !c.readOnly && IsValueAllowed(c, v) then WriteRegister(bus, Address(c), v)
    else Step(false, bus)
  }

  /** `getState`: the raw register value, with no range check. */
  function GetState(c: Channel, bus: Bus): int
  {
    Read(bus, Address(c))
  }

  /**
    What a channel reads after a write: the written value when the write
    succeeded on its register, and its earlier reading otherwise.
   */
  lemma GetAfterSet(c: Channel, v: int, bus: Bus, d: Channel)
    ensures GetState(d, SetState(c, v, bus).bus) ==
            if SetState(c, v, bus).ok && Address(d) == Address(c) then v else GetState(d, bus)
  {
  }

  /** Overriding `isValueAllowed` for analog inputs agrees with the generic rule, since their maximum is -1. */
  lemma ValueAllowedIsRange(c: Channel, v: int)
    ensures IsValueAllowed(c, v) <==> 0 <= v <= Max(c.kind)
  {
  }

  /** The accepted values of the four plain kinds. */
  lemma KindTable(i: int, v: int)
    ensures IsValueAllowed(TtlChannel(i), v) <==> v == TtlOff || v == TtlOn
    ensures IsValueAllowed(PwmChannel(i), v) <==> 0 <= v <= 255
    ensures IsValueAllowed(ServoChannel(i), v) <==> 0 <= v <= 65535
    ensures !IsValueAllowed(AnalogChannel(i), v)
    ensures !TtlChannel(i).readOnly && !PwmChannel(i).readOnly && !ServoChannel(i).readOnly
    ensures AnalogChannel(i).readOnly
  {
  }

  /** An analog input never writes, whatever the value. */
  lemma AnalogInputRejectsEveryWrite(i: int, v: int, bus: Bus)
    ensures SetState(AnalogChannel(i), v, bus) == Step(false, bus)
  {
  }

  /** A write that fails, for whatever reason, leaves every channel reading what it read before. */
  lemma FailedWriteChangesNoReading(c: Channel, v: int, bus: Bus, d: Channel)
    requires !SetState(c, v, bus).ok
    ensures GetState(d, SetState(c, v, bus).bus) == GetState(d, bus)
  {
  }

  /** No two channels of the board share a register, and none sits on the version or identity register. */
  lemma AddressesDisjoint(c: Channel, d: Channel)
    requires OnBoard(c) && OnBoard(d)
    ensures Address(c) == Address(d) ==> c.kind == d.kind && c.id == d.id
    ensures Address(c) != VersionAddr && Address(c) != IdAddr
  {
  }

  /** One write of a multi-register parameter set. */
  datatype Command = Command(channel: Channel, value: int)

  /** The transport calls a list of commands makes when every one of them is accepted. */
  function WritesOf(cmds: seq<Command>): (r: seq<Call>)
    ensures |r| == |cmds|
    ensures forall i :: 0 <= i < |cmds| ==> r[i] == Write(Address(cmds[i].channel), cmds[i].value)
  {
    if cmds == [] then [] else [Write(Address(cmds[0].channel), cmds[0].value)] + WritesOf(cmds[1..])
  }

  /** No command of the list addresses register `a`. */
  predicate Untouched(cmds: seq<Command>, a: int)
  {
    forall i :: 0 <= i < |cmds| ==> Address(cmds[i].channel) != a
  }

  /**
    Writes the commands in order through `SetState` and stops at the first
    one that fails, leaving the earlier writes applied.
   */
  function WriteInOrder(cmds: seq<Command>, bus: Bus): (r: Step)
    ensures r.bus.refused == bus.refused
    ensures bus.log <= r.bus.log && |r.bus.log| <= |bus.log| + |cmds|
    ensures r.ok ==> r.bus.log == bus.log + WritesOf(cmds)
    ensures r.ok ==> forall i :: 0 <= i < |cmds| ==>
                       !cmds[i].channel.readOnly && IsValueAllowed(cmds[i].channel, cmds[i].value)
    decreases |cmds|
  {
    if cmds == [] then Step(true, bus)
    else
      var s := SetState(cmds[0].channel, cmds[0].value, bus);
      if !s.ok then s
      else
        assert forall i :: 1 <= i < |cmds| ==> cmds[1..][i - 1] == cmds[i];
        assert WritesOf(cmds) == [Write(Address(cmds[0].channel), cmds[0].value)] + WritesOf(cmds[1..]);
        var rest := WriteInOrder(cmds[1..], s.bus);
        var w := Write(Address(cmds[0].channel), cmds[0].value);
        assert s.bus.log == bus.log + [w];
        AppendAssociative(bus.log, [w], WritesOf(cmds[1..]));
        assert bus.log <= s.bus.log;
        rest
  }

  /** A register no command addresses is left as it was, whichever writes succeed. */
  lemma {:induction false} WriteInOrderFrame(cmds: seq<Command>, bus: Bus, a: int)
    requires Untouched(cmds, a)
    ensures Read(WriteInOrder(cmds, bus).bus, a) == Read(bus, a)
    decreases |cmds|
  {
    if cmds != [] {
      var s := SetState(cmds[0].channel, cmds[0].value, bus);
      if s.ok {
        assert Untouched(cmds[1..], a) by {
          forall i | 0 <= i < |cmds[1..]|
            ensures Address(cmds[1..][i].channel) != a
          {
            assert cmds[1..][i] == cmds[i + 1];
          }
        }
        WriteInOrderFrame(cmds[1..], s.bus, a);
      }
    }
  }

  /** Once a command fails, nothing after it is attempted: the result is that command's failure. */
  lemma {:induction false} StopsAtFirstFailure(cmds: seq<Command>, bus: Bus, k: nat)
    requires k < |cmds|
    requires WriteInOrder(cmds[..k], bus).ok
    requires !SetState(cmds[k].channel, cmds[k].value, WriteInOrder(cmds[..k], bus).bus).ok
    ensures WriteInOrder(cmds, bus) == SetState(cmds[k].channel, cmds[k].value, WriteInOrder(cmds[..k], bus).bus)
    decreases k
  {
    if k > 0 {
      var s := SetState(cmds[0].channel, cmds[0].value, bus);
      assert cmds[..k][0] == cmds[0];
      assert cmds[..k][1..] == cmds[1..][..k - 1];
      assert s.ok;
      StopsAtFirstFailure(cmds[1..], s.bus, k - 1);
    }
  }

  /** After a fully accepted list of writes to distinct registers, each channel reads back its value. */
  lemma {:induction false} WriteInOrderReadsBack(cmds: seq<Command>, bus: Bus)
    requires forall i, j :: 0 <= i < j < |cmds| ==> Address(cmds[i].channel) != Address(cmds[j].channel)
    requires WriteInOrder(cmds, bus).ok
    ensures forall i :: 0 <= i < |cmds| ==> GetState(cmds[i].channel, WriteInOrder(cmds, bus).bus) == cmds[i].value
    decreases |cmds|
  {
    if cmds != [] {
      var s := SetState(cmds[0].channel, cmds[0].value, bus);
      WriteInOrderReadsBack(cmds[1..], s.bus);
      var a := Address(cmds[0].channel);
      assert Untouched(cmds[1..], a) by {
        forall i | 0 <= i < |cmds[1..]|
          ensures Address(cmds[1..][i].channel) != a
        {
          assert cmds[1..][i] == cmds[i + 1];
        }
      }
      WriteInOrderFrame(cmds[1..], s.bus, a);
      forall i | 0 <= i < |cmds|
        ensures GetState(cmds[i].channel, WriteInOrder(cmds, bus).bus) == cmds[i].value
      {
        if i > 0 {
          assert cmds[i] == cmds[1..][i - 1];
        }
      }
    }
  }
}

=== FILE: transport.dfy ===
/**
  The register transport the driver talks to (the serial link to the board),
  seen only through the interface the driver needs: connect, disconnect,
  read a register, write a register.

  The device is modelled as a register file plus the log of every call made
  on the transport. Whether the device accepts a call is not something the
  driver decides, so it is an input: `refused` holds the positions (in the
  call log) of the calls the device fails. "The driver made no transport
  call" is then simply "the log is unchanged".
 */
module Transport {

  /** One call made on the transport, in the order it was made. Reads are not logged. */
  datatype Call = Connect | Disconnect | Write(addr: int, value: int)

  /** The device as the host sees it. */
  datatype Bus = Bus(regs: map<int, int>, log: seq<Call>, refused: set<nat>)

  /** The outcome of one driver operation, together with the device after it. */
  datatype Step = Step(ok: bool, bus: Bus)

  /** The value the device returns for a read; a register it never reported reads as 0. */
  function Read(bus: Bus, addr: int): int
  {
    if addr in bus.regs then bus.regs[addr] else 0
  }

  /** Whether the device accepts the next call made on the transport. */
  predicate NextSucceeds(bus: Bus)
  {
    |bus.log| !in bus.refused
  }

  /** One register write: logged whatever its outcome, applied only when the device accepts it. */
  function WriteRegister(bus: Bus, addr: int, value: int): (r: Step)
    ensures r.ok == NextSucceeds(bus)
    ensures r.bus.log == bus.log + [Write(addr, value)]
    ensures r.bus.refused == bus.refused
    ensures r.ok ==> Read(r.bus, addr) == value
    ensures !r.ok ==> r.bus.regs == bus.regs
    ensures forall a :: a != addr ==> Read(r.bus, a) == Read(bus, a)
  {
    var ok := NextSucceeds(bus);
    Step(ok, Bus(if ok then bus.regs[addr := value] else bus.regs, bus.log + [Write(addr, value)], bus.refused))
  }

  /** The device accepts the next `n` transport calls. */
  predicate AcceptsNext(bus: Bus, n: nat)
  {
    forall k :: |bus.log| <= k < |bus.log| + n ==> k !in bus.refused
  }

  /** Opening the link: logged as one call, answered by the device, and no register changes. */
  function OpenLink(bus: Bus): (r: Step)
    ensures r.ok <==> AcceptsNext(bus, 1)
    ensures r.bus.log == bus.log + [Connect]
    ensures r.bus.refused == bus.refused
    ensures forall a :: Read(r.bus, a) == Read(bus, a)
  {
    Step(NextSucceeds(bus), bus.(log := bus.log + [Connect]))
  }

  /** Closing the link: logged as one call, answered by the device, and no register changes. */
  function CloseLink(bus: Bus): (r: Step)
    ensures r.ok <==> AcceptsNext(bus, 1)
    ensures r.bus.log == bus.log + [Disconnect]
    ensures r.bus.refused == bus.refused
    ensures forall a :: Read(r.bus, a) == Read(bus, a)
  {
    Step(NextSucceeds(bus), bus.(log := bus.log + [Disconnect]))
  }
}
